=== FILE: README.md ===
# Periodic table element data, modelled in Dafny

This project models `ElementData`, the data core of a small Swing periodic-table
viewer. Its parts are:

- **Loading.** `loadElements` reads the data file line by line. Each line is a
  brace-wrapped list of `name: value` properties separated by `;`. The loader
  strips the braces, splits the line and sets the matching field of a new
  `Element` by reflection, then appends that element to a static list. The
  first exception stops the load.
- **Lookup.** `lookupElement` resolves a key in one of three modes: `"Atomic #"`
  (the position in the list), `"Name"` or `"Symbol"`. Name and symbol use a
  case-insensitive exact match. When `"Name"` finds no exact match, it falls
  back to the element with the closest name by Levenshtein distance.
- **Levenshtein distance.** `levenshteinDistance` computes the edit distance
  of the two lower-cased strings with a single row of costs that it
  overwrites in place.
- **Display names.** `getRealName` and the two `fromRealName` lookups
  translate between enum constants and their display names, such as
  `NON_METALLIC` and "Non-metallic".

## Modules

- `Text` holds the Java string operations the core relies on:
  - ASCII `toLowerCase` and `equalsIgnoreCase`;
  - `trim`;
  - the brace removal of `replaceAll("\\{|}", "")`;
  - `String.split` with a one-character separator, which drops trailing
    empty pieces and returns the whole string when the separator is absent;
  - `Integer.parseInt` with its 32-bit range.
- `Levenshtein` defines the cost table `Cost` as a function. The method
  `LevenshteinDistance` keeps the Java one-row array algorithm on an `array<int>`
  and is proved equal to the table's last cell.
- `RealNames` models the two enums, `getRealName` and `fromRealName`.
- `Elements` models:
  - the `Element` record with its defaults (`EmptyElement`);
  - the field dispatch, `SetField`;
  - the parse of one line, `ParseLine`;
  - the specification of a whole load, `Load`.
- `LookupEngine` gives the specification of `lookupElement` as the function `Lookup`.
- `Catalog` holds the class `ElementData` with the mutable `elements` list.
  Its `LoadElements` and `LookupElement` methods keep the loops of the Java
  code and are proved against `Load` and `Lookup`.

`null` is modelled as `None`. An exception is modelled as `Err`, which holds a
`LoadError`, or as the `failure` that `LoadElements` returns.

Three behaviours of the code are modelled as written, even though the surrounding
documentation suggests otherwise:

- **A reload duplicates the list.** `loadElements` is documented as
  "loads/reloads". The reload button calls it again, but it only appends to
  the static list and never clears it. So every reload adds a second copy of
  every element (see Findings).
- **A failed load is not undone.** Each element is appended as soon as its
  line parses, and the exception handler only prints the stack trace. A load
  that throws on a later line keeps the elements of the lines before it (see
  Findings). The corrected `ReloadElements` loads into a separate list and
  replaces the current one only when the whole file loaded.
- **The file can override the counter.** The atomic number is the line
  counter unless the line itself has an `atomicNumber:` property. Then the
  parsed value wins, and the last such property wins if there are several.

## Model

| member | source | states |
|---|---|---|
| Text.Lower | src/main/java/io/github/anon10w1z/periodictable/ElementData.java:115-116 | `toLowerCase` on ASCII; `LowerIdempotent` and `DistanceIgnoresCase` state what it does to the distance |
| Text.EqualsIgnoreCase | src/main/java/io/github/anon10w1z/periodictable/ElementData.java:87-89 | `equalsIgnoreCase`: equal after lower-casing both sides; `LookupExact` and `ClosestAgreesWithExactName` use it |
| Text.Trim | src/main/java/io/github/anon10w1z/periodictable/ElementData.java:73-75 | `trim`; `TrimSlice`, `TrimEmptyIffBlank` and `TrimIdempotent` state its contract |
| Text.TrimEmptyIffBlank | src/main/java/io/github/anon10w1z/periodictable/ElementData.java:73 | a key trims to length 0 exactly when every character is at most a space |
| Text.TrimIdempotent | src/main/java/io/github/anon10w1z/periodictable/ElementData.java:75 | trimming an already trimmed key changes nothing |
| Text.TrimSlice | src/main/java/io/github/anon10w1z/periodictable/ElementData.java:39-40 | the trimmed text is a slice of the input that drops only blanks and has no blank at either end |
| Text.RemoveBraces | src/main/java/io/github/anon10w1z/periodictable/ElementData.java:33 | the brace-removing `replaceAll`; `RemoveBracesNoBraces`, `RemoveBracesOnlyBraces`, `RemoveBracesConcat` and `RemoveBracesWrapped` state its contract |
| Text.RemoveBracesNoBraces | src/main/java/io/github/anon10w1z/periodictable/ElementData.java:33 | no brace is left, and a line without braces is unchanged |
| Text.RemoveBracesOnlyBraces | src/main/java/io/github/anon10w1z/periodictable/ElementData.java:33 | only braces are removed: as multisets, the line is the result plus the removed braces |
| Text.RemoveBracesConcat | src/main/java/io/github/anon10w1z/periodictable/ElementData.java:33 | braces are removed piece by piece, so the kept characters stay in their order |
| Text.RemoveBracesWrapped | src/main/java/io/github/anon10w1z/periodictable/ElementData.java:33 | the braces wrapping a line are dropped and the rest of the line is what it would be without them |
| Text.Split | src/main/java/io/github/anon10w1z/periodictable/ElementData.java:34 | without the separator the result is the whole line, as one piece |
| Text.SplitPrefix | src/main/java/io/github/anon10w1z/periodictable/ElementData.java:34 | with the separator, the result is a prefix of the pieces between separators that does not end in an empty piece |
| Text.SplitDropsOnlyEmpty | src/main/java/io/github/anon10w1z/periodictable/ElementData.java:34 | the pieces that the result leaves out are all empty |
| Text.SplitFewerThanTwo | src/main/java/io/github/anon10w1z/periodictable/ElementData.java:38 | `split` gives fewer than two pieces exactly when the separator is absent or nothing but separators follows its first occurrence |
| Text.PiecesFromAllEmpty | src/main/java/io/github/anon10w1z/periodictable/ElementData.java:38 | every piece between separators is empty exactly when the text holds only separators |
| Text.DropTrailingEmptyAtMostOne | src/main/java/io/github/anon10w1z/periodictable/ElementData.java:34 | dropping trailing empty pieces leaves at most one exactly when every piece after the first is empty |
| Text.SplitNoSeparator | src/main/java/io/github/anon10w1z/periodictable/ElementData.java:34 | no piece of the result contains the separator |
| Text.JoinPieces | src/main/java/io/github/anon10w1z/periodictable/ElementData.java:34 | joining the pieces of a string with the separator gives the string back |
| Text.ParseInt | src/main/java/io/github/anon10w1z/periodictable/ElementData.java:78 | a parsed value is within the 32-bit range, and the empty string does not parse; `ParseIntDigits` and `ParseIntSignedDigits` give both directions of its grammar |
| Text.ParseIntDigits | src/main/java/io/github/anon10w1z/periodictable/ElementData.java:45 | only an optional leading sign followed by at least one decimal digit parses, so a lone `+` or `-` throws |
| Text.ParseIntSignedDigits | src/main/java/io/github/anon10w1z/periodictable/ElementData.java:45 | every nonempty run of digits parses to its value when it fits in 32 bits, leading zeros included, with or without a leading `+`, and with a leading `-` to its negation |
| Text.ParseDecimalString | src/main/java/io/github/anon10w1z/periodictable/ElementData.java:78 | every 32-bit number parses back from its decimal text, which trimming leaves unchanged |
| Levenshtein.LevenshteinDistance | src/main/java/io/github/anon10w1z/periodictable/ElementData.java:112-130 | `Integer.MAX_VALUE` for a null argument; otherwise the edit distance of the two lower-cased strings |
| Levenshtein.NextRow | src/main/java/io/github/anon10w1z/periodictable/ElementData.java:120-128 | one outer pass turns row i-1 of the cost table, held in `costs`, into row i |
| Levenshtein.EditDistance | src/main/java/io/github/anon10w1z/periodictable/ElementData.java:112-130 | the edit distance of two strings; its contract is stated by `EditDistanceZeroIff`, `EditDistanceSymmetric` and `EditDistanceBounds`, and `LevenshteinDistance` computes it |
| Levenshtein.Distance | src/main/java/io/github/anon10w1z/periodictable/ElementData.java:112-130 | `levenshteinDistance` with nulls as `None`; its contract is stated by `DistanceRange`, `DistanceSymmetric` and `DistanceIgnoresCase` |
| Levenshtein.Cost | src/main/java/io/github/anon10w1z/periodictable/ElementData.java:124 | cell (i, j) of the cost table, the recurrence of the inner loop; `CostUpperBound`, `CostLowerBound`, `CostSymmetric` and `CostZeroIff` state its contract |
| Levenshtein.CostUpperBound | src/main/java/io/github/anon10w1z/periodictable/ElementData.java:124 | a cell of the table is at most the longer prefix length |
| Levenshtein.CostLowerBound | src/main/java/io/github/anon10w1z/periodictable/ElementData.java:124 | a cell is at least the difference of the prefix lengths |
| Levenshtein.CostSymmetric | src/main/java/io/github/anon10w1z/periodictable/ElementData.java:124 | swapping the strings transposes the table |
| Levenshtein.CostZeroIff | src/main/java/io/github/anon10w1z/periodictable/ElementData.java:124 | a cell is 0 exactly when the two prefixes are equal |
| Levenshtein.EditDistanceZeroIff | src/main/java/io/github/anon10w1z/periodictable/ElementData.java:112-130 | the distance is 0 exactly when the strings are equal |
| Levenshtein.EditDistanceSymmetric | src/main/java/io/github/anon10w1z/periodictable/ElementData.java:112-130 | the distance does not depend on argument order |
| Levenshtein.EditDistanceBounds | src/main/java/io/github/anon10w1z/periodictable/ElementData.java:117-119 | the length difference is at most the distance, which is at most the longer length; the distance to the empty string is the length |
| Levenshtein.DistanceRange | src/main/java/io/github/anon10w1z/periodictable/ElementData.java:113-114 | null gives `Integer.MAX_VALUE`; two strings give a value between 0 and the longer length |
| Levenshtein.DistanceSymmetric | src/main/java/io/github/anon10w1z/periodictable/ElementData.java:112-130 | `levenshteinDistance(a, b) == levenshteinDistance(b, a)`, nulls included |
| Levenshtein.DistanceIgnoresCase | src/main/java/io/github/anon10w1z/periodictable/ElementData.java:115-116 | lower-casing either argument changes nothing; the distance is 0 exactly when the strings are equal ignoring case |
| Levenshtein.ReferenceDistances | src/test/java/io/github/anon10w1z/periodictable/tests/PeriodicTableTest.java:32-33 | book/back is 2 and heir/hair is 1 |
| RealNames.RealName | src/main/java/io/github/anon10w1z/periodictable/ElementData.java:137-142 | apart from `NOT_APPLICABLE`, the display name keeps the length and the first character of the identifier |
| RealNames.RealNameTail | src/main/java/io/github/anon10w1z/periodictable/ElementData.java:137-142 | after its first character, a display name has no upper-case letter and no `_` |
| RealNames.MetallicRealName | src/main/java/io/github/anon10w1z/periodictable/ElementData.java:155-158 | `MetallicProperties.toString`; `MetallicDisplayName` proves it equal to `getRealName` of the identifier |
| RealNames.MatterRealName | src/main/java/io/github/anon10w1z/periodictable/ElementData.java:173-176 | `MatterState.toString`; `MatterDisplayName` proves it equal to `getRealName` of the identifier |
| RealNames.MetallicDisplayName | src/main/java/io/github/anon10w1z/periodictable/ElementData.java:144-158 | the display name of each constant is `getRealName` of its identifier: "Non-metallic", "Metalloid", "Metallic" and "N/A" |
| RealNames.MatterDisplayName | src/main/java/io/github/anon10w1z/periodictable/ElementData.java:161-176 | the display name of each constant is `getRealName` of its identifier: "Solid", "Liquid", "Gas", "Synthetic" and "N/A" |
| RealNames.MetallicFromValues | src/main/java/io/github/anon10w1z/periodictable/ElementData.java:150-153 | a found constant is in `values()` and has the given display name |
| RealNames.MetallicFromValuesFinds | src/main/java/io/github/anon10w1z/periodictable/ElementData.java:150-153 | the search finds a constant whenever some constant has the name, so null means that none has it |
| RealNames.MatterFromValues | src/main/java/io/github/anon10w1z/periodictable/ElementData.java:168-171 | a found constant is in `values()` and has the given display name |
| RealNames.MatterFromValuesFinds | src/main/java/io/github/anon10w1z/periodictable/ElementData.java:168-171 | the search finds a constant whenever some constant has the name, so null means that none has it |
| RealNames.MetallicFromRealName | src/main/java/io/github/anon10w1z/periodictable/ElementData.java:150-153 | `MetallicProperties.fromRealName`; `MetallicFromValues`, `MetallicFromValuesFinds` and `MetallicRoundTrip` state its contract |
| RealNames.MatterFromRealName | src/main/java/io/github/anon10w1z/periodictable/ElementData.java:168-171 | `MatterState.fromRealName`; `MatterFromValues`, `MatterFromValuesFinds` and `MatterRoundTrip` state its contract |
| RealNames.MetallicRoundTrip | src/main/java/io/github/anon10w1z/periodictable/ElementData.java:150-158 | `fromRealName(toString())` returns the constant, and `fromRealName` is non-null exactly on the four display names |
| RealNames.MatterRoundTrip | src/main/java/io/github/anon10w1z/periodictable/ElementData.java:168-176 | `fromRealName(toString())` returns the constant, and `fromRealName` is non-null exactly on the five display names |
| Elements.EmptyElementDefaults | src/main/java/io/github/anon10w1z/periodictable/ElementData.java:182-189 | a new element has atomic number 0, name and symbol "N/A", both enums `NOT_APPLICABLE` (shown as "N/A") and mass 0; `EmptyElement` is this element, and `ParseLine` starts from it |
| Elements.Property | src/main/java/io/github/anon10w1z/periodictable/ElementData.java:38-40 | a segment without `:` throws; `PropertyNameValue`, `PropertyFails` and `PropertyParts` state the rest of its contract |
| Elements.PropertyNameValue | src/main/java/io/github/anon10w1z/periodictable/ElementData.java:38-40 | the name is the trimmed text before the first `:`, and the value is the trimmed text between that `:` and the next one or the end |
| Elements.PropertyOfNameValue | src/main/java/io/github/anon10w1z/periodictable/ElementData.java:38-40 | a segment written as a name, `:` and a nonempty value without further `:` gives that name and value, trimmed: "name: H" gives ("name", "H") |
| Elements.PropertyFails | src/main/java/io/github/anon10w1z/periodictable/ElementData.java:38-40 | a segment throws exactly when it has no `:`, or when nothing but `:` follows its first `:` (so "atomicMass:" throws and "name: " does not) |
| Elements.PropertyParts | src/main/java/io/github/anon10w1z/periodictable/ElementData.java:38-40 | a parsed name and value are already trimmed and hold no `:` |
| Elements.IsDoubleLiteral | src/main/java/io/github/anon10w1z/periodictable/ElementData.java:47 | the decimal literals `Double.parseDouble` accepts; `SetFieldEffect` states that `atomicMass` throws exactly off this set |
| Elements.FindField | src/main/java/io/github/anon10w1z/periodictable/ElementData.java:41 | the stream filter and `findFirst`; `FindFieldSpec` and `FindDeclaredField` state its contract |
| Elements.Assign | src/main/java/io/github/anon10w1z/periodictable/ElementData.java:43-53 | the dispatch on the type of the field found; `SetFieldEffect` states its contract |
| Elements.SetField | src/main/java/io/github/anon10w1z/periodictable/ElementData.java:41-54 | the body of the property loop; `SetFieldEffect` states its contract |
| Elements.FindFieldSpec | src/main/java/io/github/anon10w1z/periodictable/ElementData.java:41 | the filter and `findFirst` return a field of the list that has the name, and return nothing only when no field has it |
| Elements.FindDeclaredField | src/main/java/io/github/anon10w1z/periodictable/ElementData.java:41-43 | a declared field is found exactly for the six field names of `Element`, and it has that name |
| Elements.FindFieldAnyOrder | src/main/java/io/github/anon10w1z/periodictable/ElementData.java:41 | whatever order `getDeclaredFields()` lists the six fields in, the search by name finds the same field |
| Elements.SetFieldEffect | src/main/java/io/github/anon10w1z/periodictable/ElementData.java:41-54 | an unknown name leaves the element as it is; it throws exactly on a bad `int` or `double`; on success the named field holds the value as its type reads it (`parseInt` for `atomicNumber`, the text for `name` and `symbol`, `fromRealName` for the enums, the literal for `atomicMass`); no other field changes |
| Elements.ApplyProperties | src/main/java/io/github/anon10w1z/periodictable/ElementData.java:37-55 | the inner loop, stopping at the first exception; `ApplyPropertiesStep`, `ApplyPropertiesFrame`, `LastPropertyWins` and `ApplyPropertiesAfterFailure` state its contract |
| Elements.ApplyPropertiesStep | src/main/java/io/github/anon10w1z/periodictable/ElementData.java:37-55 | one more pass of the inner loop applies the next property to the element built so far |
| Elements.ApplyPropertiesFrame | src/main/java/io/github/anon10w1z/periodictable/ElementData.java:37-55 | after the inner loop, only fields named by some property differ from the starting element |
| Elements.FieldKeptAfter | src/main/java/io/github/anon10w1z/periodictable/ElementData.java:37-55 | a field that no later property names keeps the value it had after property j |
| Elements.LastPropertyWins | src/main/java/io/github/anon10w1z/periodictable/ElementData.java:37-55 | whatever field the last property naming it is, that field holds the value of that property, read as its type reads it |
| Elements.ParsedElementFields | src/main/java/io/github/anon10w1z/periodictable/ElementData.java:33-55 | a parsed line keeps the defaults of unnamed fields, takes the counter as atomic number unless a property names it, and each of the six fields named by some property holds the value of the last property naming it |
| Elements.LineWithoutColonFails | src/main/java/io/github/anon10w1z/periodictable/ElementData.java:38-40 | a line without `:` or `;` (a blank line, for instance) throws on its only segment |
| Elements.SinglePropertyLine | src/main/java/io/github/anon10w1z/periodictable/ElementData.java:33-55 | a line holding one property `name: value` (no braces, `;` or further `:`) is the fresh element with that property set, so by `SetFieldEffect` "name: H" sets `name` to "H" |
| Elements.WrappedLine | src/main/java/io/github/anon10w1z/periodictable/ElementData.java:33 | the braces around a line do not change what it parses to |
| Elements.BracedPropertyLine | src/main/java/io/github/anon10w1z/periodictable/ElementData.java:33-55 | a data-file line `{name: value}` holding one property sets that field to that value, so "{name: H}" sets `name` to "H" |
| Elements.ApplyPropertiesAfterFailure | src/main/java/io/github/anon10w1z/periodictable/ElementData.java:37-40 | once a property throws, the rest of the line is not applied |
| Elements.ParseLine | src/main/java/io/github/anon10w1z/periodictable/ElementData.java:33-55 | the parse of one line with its counter: `Segments` strips the braces and splits on `;`, `Properties` splits and trims each segment, and `ApplyProperty` is one pass of the inner loop; `ParsedElementFields`, `LastPropertyWins`, `PropertyFails`, `LineWithoutColonFails`, `SinglePropertyLine` and `BracedPropertyLine` state its contract |
| Elements.Collect | src/main/java/io/github/anon10w1z/periodictable/ElementData.java:32-57 | the list holds the elements of a prefix of the lines; a failure is the error of the first line after that prefix |
| Elements.CollectedResults | src/main/java/io/github/anon10w1z/periodictable/ElementData.java:32-57 | nothing fails exactly when every line parses, and each collected element is its line's result |
| Elements.LoadStep | src/main/java/io/github/anon10w1z/periodictable/ElementData.java:32-57 | one pass of the outer loop either ends the load with that line's error or appends that line's element |
| Elements.Load | src/main/java/io/github/anon10w1z/periodictable/ElementData.java:30-57 | the whole load, with `LineResults` the parse of each line under its counter; `LoadSucceedsIff`, `LoadedElementsParse`, `LoadFailureLine` and `FailedLoadKeepsEarlierLines` state its contract |
| Elements.LoadSucceedsIff | src/main/java/io/github/anon10w1z/periodictable/ElementData.java:30-57 | the load succeeds exactly when every line parses |
| Elements.LoadedElementsParse | src/main/java/io/github/anon10w1z/periodictable/ElementData.java:30-57 | element k of the list is line k+1 parsed with counter k+1 |
| Elements.LoadFailureLine | src/main/java/io/github/anon10w1z/periodictable/ElementData.java:30-57 | a failure is the error of the line right after the kept elements, which by `LoadedElementsParse` is the first line that does not parse |
| Elements.FailedLoadKeepsEarlierLines | src/main/java/io/github/anon10w1z/periodictable/ElementData.java:56-63 | a first line that parses followed by a second that throws gives that error with the first element kept |
| Elements.CollectAfterFailure | src/main/java/io/github/anon10w1z/periodictable/ElementData.java:61-63 | the lines after the first failure change neither the list nor the failure |
| LookupEngine.Matches | src/main/java/io/github/anon10w1z/periodictable/ElementData.java:87-89 | the exact-match test of the first loop: the name in "Name" mode, the symbol in "Symbol" mode, ignoring case; `FirstMatch` and `LookupExact` use it |
| LookupEngine.Closest | src/main/java/io/github/anon10w1z/periodictable/ElementData.java:91-101 | the element the closest-name loop returns; `LookupClosestName` and `ClosestAgreesWithExactName` state its contract |
| LookupEngine.FirstMatch | src/main/java/io/github/anon10w1z/periodictable/ElementData.java:86-90 | the first element whose name (in "Name" mode) or symbol (in "Symbol" mode) equals the key ignoring case, or none when no element does |
| LookupEngine.FirstMinimum | src/main/java/io/github/anon10w1z/periodictable/ElementData.java:92-100 | the first index of strictly smallest distance below `Integer.MAX_VALUE`, together with that distance |
| LookupEngine.Lookup | src/main/java/io/github/anon10w1z/periodictable/ElementData.java:72-104 | `lookupElement` on a list; `LookupInvalidInput`, `LookupAtomicNumber`, `LookupExact`, `LookupClosestName` and `LookupNoMatch` state its contract case by case |
| LookupEngine.LookupInvalidInput | src/main/java/io/github/anon10w1z/periodictable/ElementData.java:73-74 | a null key, a blank key or a null mode give the empty element |
| LookupEngine.LookupAtomicNumber | src/main/java/io/github/anon10w1z/periodictable/ElementData.java:76-84 | in "Atomic #" mode a key parsing to n in 1..size gives element n-1, and every other key gives the empty element |
| LookupEngine.LookupEveryPosition | src/main/java/io/github/anon10w1z/periodictable/ElementData.java:76-81 | the decimal text of every position 1..size finds the element there |
| LookupEngine.LookupPastEnd | src/main/java/io/github/anon10w1z/periodictable/ElementData.java:79-80 | the decimal text of a number past the end of the list gives the empty element |
| LookupEngine.LookupExact | src/main/java/io/github/anon10w1z/periodictable/ElementData.java:86-90 | in "Name" or "Symbol" mode the first exact case-insensitive match is returned |
| LookupEngine.LookupClosestName | src/main/java/io/github/anon10w1z/periodictable/ElementData.java:91-101 | with no exact name match, "Name" returns the first element of least edit distance, or the empty element when there is none |
| LookupEngine.LookupNoMatch | src/main/java/io/github/anon10w1z/periodictable/ElementData.java:86-103 | in "Symbol" or any unknown mode, no exact match gives the empty element |
| LookupEngine.ClosestAgreesWithExactName | src/main/java/io/github/anon10w1z/periodictable/ElementData.java:91-101 | when some name equals the key ignoring case, the closest-name scan picks the first such element |
| Catalog.ElementData.constructor | src/main/java/io/github/anon10w1z/periodictable/ElementData.java:18 | the list starts empty |
| Catalog.ElementData.LoadElements | src/main/java/io/github/anon10w1z/periodictable/ElementData.java:24-64 | the list becomes the old list followed by the loaded elements, and the failure is the load's first error |
| Catalog.ElementData.ParseElement | src/main/java/io/github/anon10w1z/periodictable/ElementData.java:33-55 | the body of the line loop computes the parse of that line |
| Catalog.ElementData.ReloadElements | src/main/java/io/github/anon10w1z/periodictable/ElementData.java:24-64 | the corrected reload: the failure is the load's first error; on success the list becomes exactly the loaded elements, whatever it held before; on failure the list is unchanged |
| Catalog.ElementData.LookupElement | src/main/java/io/github/anon10w1z/periodictable/ElementData.java:72-104 | the element returned is the one `Lookup` specifies for the current list |
| Catalog.ElementData.ScanExact | src/main/java/io/github/anon10w1z/periodictable/ElementData.java:86-90 | the exact-match loop stops at the first match, if there is one |
| Catalog.ElementData.ScanClosest | src/main/java/io/github/anon10w1z/periodictable/ElementData.java:91-101 | the closest-name loop returns the element at the first least distance |
| Catalog.LoadTwice | src/main/java/io/github/anon10w1z/periodictable/PeriodicTableFrame.java:58 | as written, loading the file at start-up and again on reload leaves every element twice |
| Catalog.FailedLoadAsWritten | src/main/java/io/github/anon10w1z/periodictable/ElementData.java:56-63 | as written, a load whose second line throws still appends the first line's element, so the list differs from what it was |
| Catalog.ReloadTwice | src/main/java/io/github/anon10w1z/periodictable/PeriodicTableFrame.java:58 | with the corrected reload, a load followed by a reload leaves each element once |
| Catalog.ReloadedPositions | src/main/java/io/github/anon10w1z/periodictable/ElementData.java:79-81 | after a duplicating reload, atomic numbers past the end of the file find elements of the second copy instead of nothing |

## Left out

- File access, the resource stream, UTF-8 decoding and `BufferedReader` are left out. The lines of the file are a parameter.
- `silent`, the success message and `printStackTrace` are left out. `LoadElements` returns the exception as `failure` instead.
- Reflection is modelled by its result only. `getDeclaredFields()` is a list of the six fields of `Element` (`DeclaredFields`). Java does not fix the order of that list, but the order does not matter: the six field names are distinct, so `findFirst` by name finds the same field in any order (`FindFieldAnyOrder`). The stream filter is a search by name (`FindField`), and the type test is a dispatch on the field found (`Assign`). The fields of `Element` are public, so no access check can fail, and no exception from reflection is modelled.
- `Double.parseDouble` is left out. `IsDoubleLiteral` accepts the decimal literal grammar: a sign, digits with an optional point, an optional exponent and an optional `f`/`d` suffix. It does not accept `NaN`, `Infinity` or hexadecimal literals. The mass is kept as its text, with no floating-point rounding.
- `toLowerCase`, `equalsIgnoreCase`, `trim` and the digits of `parseInt` are modelled on ASCII only. The Java operations are Unicode- and locale-aware.
- The line counter is unbounded. Its 32-bit wrap-around after 2^31 lines is not modelled.
- Levenshtein.ReferenceDistances: the third value of the unit test (superduperubercool against supperdupperubbercewl, distance 5) is not proved. Evaluating its 19 × 22 table cell by cell exceeds the proof budget.
- The model compares elements by value, whereas Java compares `emptyElement` by reference. A parsed line that sets nothing but the default values equals `EmptyElement` in the model.
- The static fields become the fields of one `ElementData` object. Concurrent access from the Swing event thread is not modelled.
- `IOException`, `IllegalAccessException` and other exceptions that cannot arise from the file's contents are not modelled.
- The user interface (PeriodicTableFrame.java, UneditableTextPane.java) and the launcher (PeriodicTable.java) are not part of this model.

## Findings

| source | as written | input that shows it | evidently intended | confidence | as-written member | corrected member |
|---|---|---|---|---|---|---|
| src/main/java/io/github/anon10w1z/periodictable/ElementData.java:56 | `loadElements` appends to the static list and never clears it, and the "Reload Elements" button calls it again | any file whose first line parses, loaded at start-up and then reloaded: the list holds every element twice, and "Atomic #" of size+1 finds element 1 instead of the empty element | a reload replaces the list with the file's elements | high; not executed | Catalog.LoadTwice | Catalog.ElementData.ReloadElements |
| src/main/java/io/github/anon10w1z/periodictable/ElementData.java:56-63 | each element is appended as soon as its line parses, and the exception handler only prints the stack trace, so a load that throws on line k keeps lines 1..k-1 appended | a file whose first line is `name: H` and whose second line is `atomicMass:`: the load reports the exception and the list grows by one element | a failed load, including a failed reload, leaves the list unchanged | medium; not executed | Catalog.FailedLoadAsWritten | Catalog.ElementData.ReloadElements |

=== FILE: catalog.dfy ===
/**
 * The state of ElementData.java: the static `elements` list, which
 * `loadElements` appends to and `lookupElement` scans.
 */
module Catalog {
  import opened Wrappers
  import opened Text
  import opened Levenshtein
  import opened Elements
  import opened LookupEngine

  class ElementData {
    /** `ElementData.elements`, in load order. */
    var elements: seq<Element>

    /** The static initialiser: an empty list. */
    constructor ()
      ensures elements == []
    {
      elements := [];
    }

    /**
     * `loadElements` on the lines of the data file. Each line is parsed into
     * one element and appended; the list is not cleared first. The first
     * exception ends the load, and what was appended before it stays.
     * `failure` is the exception the source prints.
     */
    method LoadElements(lines: seq<string>) returns (failure: Option<LoadError>)
      modifies this
      ensures elements == old(elements) + Load(lines).elements
      ensures failure == Load(lines).failure
    {
      ghost var results := LineResults(lines);
      var atomicNumber := 0;
      var n := 0;
      while n < |lines|
        invariant 0 <= n <= |lines| && atomicNumber == n
        invariant Collect(results[..n]).failure.None?
        invariant elements == old(elements) + Collect(results[..n]).elements
      {
        atomicNumber := atomicNumber + 1;
        var parsed := ParseElement(lines[n], atomicNumber);
        LoadStep(lines, n, parsed);
        if parsed.Err? {
          failure := Some(parsed.error);
          return;
        }
        elements := elements + [parsed.value];
        n := n + 1;
      }
      assert results[..n] == results;
      failure := None;
    }

    /** The body of the loop of `loadElements` over the lines: scan the segments of the list of `line`. */
    static method ParseElement(line: string, atomicNumber: int) returns (r: Result<Element, LoadError>)
      ensures r == ParseLine(line, atomicNumber)
    {
      var properties := Split(RemoveBraces(line), ';');
      assert properties == Segments(line);
      var element := EmptyElement.(atomicNumber := atomicNumber);
      ghost var props := Properties(line);
      var p := 0;
      while p < |properties|
        invariant 0 <= p <= |properties| == |props|
        invariant ApplyProperties(EmptyElement.(atomicNumber := atomicNumber), props[..p]) == Ok(element)
      {
        ApplyPropertiesStep(EmptyElement.(atomicNumber := atomicNumber), props, p, element);
        PropertyAt(line, p);
        var propertyArray := Split(properties[p], ':');
        if |propertyArray| < 2 {
          r := Err(MissingValue(properties[p]));
          assert props[p] == Err(MissingValue(properties[p]));
          ApplyPropertiesAfterFailure(EmptyElement.(atomicNumber := atomicNumber), props, p + 1, r.error);
          return;
        }
        var propertyName := Trim(propertyArray[0]);
        var propertyValue := Trim(propertyArray[1]);
        assert props[p] == Ok((propertyName, propertyValue));
        var updated := SetField(element, propertyName, propertyValue);
        if updated.Err? {
          r := Err(updated.error);
          ApplyPropertiesAfterFailure(EmptyElement.(atomicNumber := atomicNumber), props, p + 1, r.error);
          return;
        }
        element := updated.value;
        p := p + 1;
      }
      assert props[..p] == props;
      r := Ok(element);
    }

    /**
     * A reload as the reload button evidently means it: the file is read into
     * a fresh list, which replaces the current one in a single step only when
     * the whole file loaded. A reload that throws leaves the list as it was.
     */
    method ReloadElements(lines: seq<string>) returns (failure: Option<LoadError>)
      modifies this
      ensures failure == Load(lines).failure
      ensures failure.None? ==> elements == Load(lines).elements
      ensures failure.Some? ==> elements == old(elements)
    {
      var staged := new ElementData();
      failure := staged.LoadElements(lines);
      if failure.None? {
        elements := staged.elements;
      }
    }

    /**
     * `lookupElement(property, propertyType)` on the current list; `None`
     * stands for a `null` argument.
     */
    method LookupElement(property: Option<string>, propertyType: Option<string>) returns (e: Element)
      ensures e == Lookup(elements, property, propertyType)
    {
      if property.None? || |Trim(property.value)| == 0 || propertyType.None? {
        return EmptyElement;
      }
      var key := Trim(property.value);
      var mode := propertyType.value;
      if mode == AtomicNumberMode {
        var atomicNumber := ParseInt(key);
        if atomicNumber.Some? {
          if atomicNumber.value < 1 || atomicNumber.value > |elements| {
            return EmptyElement;
          }
          return elements[atomicNumber.value - 1];
        }
      }
      var found := ScanExact(key, mode);
      if found.Some? {
        return elements[found.value];
      }
      if mode == NameMode {
        e := ScanClosest(key);
        return;
      }
      return EmptyElement;
    }

    /** The exact-match loop of `lookupElement`: the index of the element it returns, if any. */
    method ScanExact(key: string, mode: string) returns (found: Option<nat>)
      ensures found == FirstMatch(elements, key, mode)
    {
      for i := 0 to |elements|
        invariant forall j :: 0 <= j < i ==> !Matches(elements[j], key, mode)
      {
        if EqualsIgnoreCase(elements[i].name, key) && mode == NameMode {
          return Some(i);
        } else if EqualsIgnoreCase(elements[i].symbol, key) && mode == SymbolMode {
          return Some(i);
        }
      }
      return None;
    }

    /** The closest-name loop of `lookupElement`. */
    method ScanClosest(key: string) returns (closestElement: Element)
      ensures closestElement == Closest(elements, key)
    {
      var smallestDistance := IntMax;
      closestElement := EmptyElement;
      ghost var closest: Option<nat> := None;
      ghost var ds := Distances(elements, key);
      for i := 0 to |elements|
        invariant FirstMinimum(ds[..i]) == (closest, smallestDistance)
        invariant closest.Some? ==> closest.value < |elements| && closestElement == elements[closest.value]
        invariant closest.None? ==> closestElement == EmptyElement
      {
        var distance := LevenshteinDistance(Some(elements[i].name), Some(key));
        assert ds[..i + 1][..i] == ds[..i];
        if distance < smallestDistance {
          closestElement := elements[i];
          smallestDistance := distance;
          closest := Some(i);
        }
      }
      assert ds[..|elements|] == ds;
    }
  }

  /**
   * The application loads the file at start-up and again on every press of
   * its reload button. Because `loadElements` appends, two loads of the same
   * lines leave every element twice.
   */
  method LoadTwice(lines: seq<string>) returns (loaded: seq<Element>)
    ensures loaded == Load(lines).elements + Load(lines).elements
  {
    var data := new ElementData();
    var _ := data.LoadElements(lines);
    var _ := data.LoadElements(lines);
    loaded := data.elements;
  }

  /**
   * As written, a load that throws on the second line of the file still
   * changes the list: the first line's element stays appended.
   */
  method FailedLoadAsWritten(previous: seq<Element>, lines: seq<string>) returns (after: seq<Element>)
    requires |lines| >= 2 && ParseLine(lines[0], 1).Ok? && ParseLine(lines[1], 2).Err?
    ensures after == previous + [ParseLine(lines[0], 1).value]
    ensures after != previous
  {
    var data := new ElementData();
    data.elements := previous;
    FailedLoadKeepsEarlierLines(lines);
    var _ := data.LoadElements(lines);
    after := data.elements;
  }

  /** With the corrected reload, loading the same lines twice leaves each element once. */
  method ReloadTwice(lines: seq<string>) returns (loaded: seq<Element>)
    ensures loaded == Load(lines).elements
  {
    var data := new ElementData();
    var _ := data.LoadElements(lines);
    var _ := data.ReloadElements(lines);
    loaded := data.elements;
  }

  /**
   * After a reload, the atomic numbers past the end of the file are no
   * longer "not found": they reach the second copy of the list.
   */
  lemma ReloadedPositions(elements: seq<Element>, k: int)
    requires 1 <= k <= |elements| && 2 * |elements| <= IntMax
    ensures Lookup(elements + elements, Some(DecimalString(|elements| + k)), Some(AtomicNumberMode)) == elements[k - 1]
    ensures Lookup(elements, Some(DecimalString(|elements| + k)), Some(AtomicNumberMode)) == EmptyElement
  {
    LookupEveryPosition(elements + elements, |elements| + k);
    assert (elements + elements)[|elements| + k - 1] == elements[k - 1];
    LookupPastEnd(elements, |elements| + k);
  }
}

=== FILE: elements.dfy ===
/**
 * The `Element` record of ElementData.java and the text format that
 * `loadElements` reads: one element per line, curly braces ignored,
 * `;`-separated `field: value` properties.
 */
module Elements {
  import opened Wrappers
  import opened Text
  import opened RealNames

  /**
   * `atomicMass` is a Java `double`; the model keeps the literal text it was
   * parsed from, and `Zero` for the default `0`.
   */
  datatype AtomicMass = Zero | Literal(text: string)

  /** `metallicProperties` and `matterState` are `None` when `fromRealName` returned `null`. */
  datatype Element = Element(
    atomicNumber: int,
    name: string,
    symbol: string,
    metallicProperties: Option<MetallicProperties>,
    matterState: Option<MatterState>,
    atomicMass: AtomicMass)

  /** `new Element()`: the default-valued record, also used as `emptyElement`. */
  const EmptyElement: Element :=
    Element(0, "N/A", "N/A", Some(MetallicProperties.NotApplicable), Some(MatterState.NotApplicable), Zero)

  /** The exceptions that abort a load. */
  datatype LoadError =
    | MissingValue(segment: string)  // `propertyArray[1]` (or `[0]`) out of bounds
    | BadInteger(text: string)       // `Integer.parseInt` failed
    | BadDouble(text: string)        // `Double.parseDouble` failed

  /** The names of the declared fields of `Element`. */
  const FieldNames: set<string> := {"atomicNumber", "name", "symbol", "metallicProperties", "matterState", "atomicMass"}

  lemma EmptyElementDefaults()
    ensures EmptyElement.atomicNumber == 0 && EmptyElement.name == "N/A" && EmptyElement.symbol == "N/A"
    ensures EmptyElement.metallicProperties == Some(MetallicProperties.NotApplicable)
    ensures EmptyElement.matterState == Some(MatterState.NotApplicable)
    ensures EmptyElement.atomicMass == Zero
    ensures MetallicRealName(EmptyElement.metallicProperties.value) == "N/A"
    ensures MatterRealName(EmptyElement.matterState.value) == "N/A"
  {
  }

  predicate IsExponent(s: string) {
    var digits := if s != [] && (s[0] == '+' || s[0] == '-') then s[1..] else s;
    digits != [] && AllDigits(digits)
  }

  predicate IsMantissa(s: string) {
    && (forall k :: 0 <= k < |s| ==> IsDigit(s[k]) || s[k] == '.')
    && (forall i, j :: 0 <= i < j < |s| && s[i] == '.' ==> s[j] != '.')
    && exists k :: 0 <= k < |s| && IsDigit(s[k])
  }

  function ExponentStart(s: string): (i: nat)
    ensures i <= |s|
    ensures i < |s| ==> s[i] == 'e' || s[i] == 'E'
  {
    if s == [] then 0 else if s[0] == 'e' || s[0] == 'E' then 0 else 1 + ExponentStart(s[1..])
  }

  /**
   * The decimal part of what `Double.parseDouble` accepts: an optional sign,
   * digits with at most one point, an optional exponent, an optional
   * `f`, `F`, `d` or `D` suffix.
   */
  predicate IsDoubleLiteral(s: string) {
    var unsigned := if s != [] && (s[0] == '+' || s[0] == '-') then s[1..] else s;
    var body := if unsigned != [] && unsigned[|unsigned| - 1] in "fFdD" then unsigned[..|unsigned| - 1] else unsigned;
    var e := ExponentStart(body);
    IsMantissa(body[..e]) && (e == |body| || IsExponent(body[e + 1..]))
  }

  /** The properties of a line: braces removed, split on `;`. */
  function Segments(line: string): seq<string> {
    Split(RemoveBraces(line), ';')
  }

  /**
   * `property.split(":")` and the trimmed name and value; a segment that
   * splits into fewer than two pieces makes the array access throw.
   */
  function Property(segment: string): (r: Result<(string, string), LoadError>)
    ensures ':' !in segment ==> r == Err(MissingValue(segment))
  {
    var parts := Split(segment, ':');
    if |parts| < 2 then Err(MissingValue(segment)) else Ok((Trim(parts[0]), Trim(parts[1])))
  }

  /**
   * A segment throws exactly when it has no `:`, or only `:` follow its first
   * `:` (as in "atomicMass:"): `split` then drops every piece after the first.
   * A blank value such as "name: " does not throw.
   */
  lemma PropertyFails(segment: string)
    ensures Property(segment).Err? <==>
      ':' !in segment || forall k :: NextSeparator(segment, ':', 0) < k < |segment| ==> segment[k] == ':'
  {
    SplitFewerThanTwo(segment, ':');
  }

  /**
   * The name is the trimmed text before the first `:`, and the value the
   * trimmed text between that `:` and the next one (or the end).
   */
  lemma PropertyNameValue(segment: string)
    requires Property(segment).Ok?
    ensures var i := NextSeparator(segment, ':', 0);
      && i < |segment|
      && Property(segment).value.0 == Trim(segment[..i])
      && Property(segment).value.1 == Trim(segment[i + 1..NextSeparator(segment, ':', i + 1)])
  {
    SplitFirstTwo(segment, ':');
  }

  /**
   * A segment written as a name, a `:` and a nonempty value, neither holding
   * a `:`, gives that name and that value, each trimmed: "name: H" gives
   * ("name", "H").
   */
  lemma PropertyOfNameValue(name: string, value: string)
    requires ':' !in name && ':' !in value && value != ""
    ensures Property(name + ":" + value) == Ok((Trim(name), Trim(value)))
  {
    var s := name + ":" + value;
    NextSeparatorAt(s, ':', 0, |name|);
    NextSeparatorAt(s, ':', |name| + 1, |s|);
    assert s[0..|name|] == name;
    assert s[|name| + 1..] == value;
    assert PiecesFrom(s, ':', |name| + 1) == [value];
    assert PiecesFrom(s, ':', 0) == [name] + PiecesFrom(s, ':', |name| + 1);
    assert Pieces(s, ':') == [name, value];
  }

  /** A name and a value that parse are trimmed already and hold no `:`. */
  lemma PropertyParts(segment: string)
    requires Property(segment).Ok?
    ensures Trim(Property(segment).value.0) == Property(segment).value.0
    ensures Trim(Property(segment).value.1) == Property(segment).value.1
    ensures ':' !in Property(segment).value.0 && ':' !in Property(segment).value.1
  {
    var parts := Split(segment, ':');
    SplitNoSeparator(segment, ':');
    TrimIdempotent(parts[0]);
    TrimIdempotent(parts[1]);
    TrimSubstring(parts[0]);
    TrimSubstring(parts[1]);
  }

  lemma TrimSubstring(s: string)
    ensures forall c :: c in Trim(s) ==> c in s
  {
    var lo, hi := TrimSlice(s);
    forall c | c in Trim(s) ensures c in s {
      var k :| 0 <= k < |Trim(s)| && Trim(s)[k] == c;
      assert s[lo + k] == c;
    }
  }

  /** The declared fields of `Element`. */
  datatype Field = AtomicNumberField | NameField | SymbolField | MetallicField | MatterField | AtomicMassField

  /**
   * `getDeclaredFields()`, listed in declaration order; Java leaves the order
   * open, and `FindFieldAnyOrder` shows that it does not matter.
   */
  const DeclaredFields: seq<Field> :=
    [AtomicNumberField, NameField, SymbolField, MetallicField, MatterField, AtomicMassField]

  /** `Field.getName`. */
  function FieldName(f: Field): string {
    match f
    case AtomicNumberField => "atomicNumber"
    case NameField => "name"
    case SymbolField => "symbol"
    case MetallicField => "metallicProperties"
    case MatterField => "matterState"
    case AtomicMassField => "atomicMass"
  }

  /** The stream filter on the field name and `findFirst`. */
  function FindField(fields: seq<Field>, name: string): (r: Option<Field>)
  {
    if fields == [] then None
    else if FieldName(fields[0]) == name then Some(fields[0])
    else FindField(fields[1..], name)
  }

  /** Distinct fields have distinct names. */
  lemma FieldNameInjective(f: Field, g: Field)
    ensures FieldName(f) == FieldName(g) ==> f == g
  {
  }

  /** Whatever order `getDeclaredFields()` lists the six fields in, the search by name finds the same field. */
  lemma FindFieldAnyOrder(fields: seq<Field>, name: string)
    requires forall f: Field :: f in fields
    ensures FindField(fields, name) == FindField(DeclaredFields, name)
  {
    FindFieldSpec(fields, name);
    FindFieldSpec(DeclaredFields, name);
    FindDeclaredField(name);
    assert forall f: Field :: FieldName(f) in FieldNames;
    match FindField(DeclaredFields, name)
    case None =>
    case Some(g) =>
      assert g in fields;
      var i :| 0 <= i < |fields| && fields[i] == g;
      assert FieldName(fields[i]) == name;
      FieldNameInjective(FindField(fields, name).value, g);
  }

  /**
   * The assignment through the field found, chosen by its type: `int`
   * through `Integer.parseInt`, `double` through `Double.parseDouble`,
   * `String` as it is, the enums through `fromRealName`.
   */
  function Assign(e: Element, f: Field, value: string): Result<Element, LoadError> {
    match f
    case AtomicNumberField =>
      (match ParseInt(value)
       case None => Err(BadInteger(value))
       case Some(n) => Ok(e.(atomicNumber := n)))
    case NameField => Ok(e.(name := value))
    case SymbolField => Ok(e.(symbol := value))
    case MetallicField => Ok(e.(metallicProperties := MetallicFromRealName(value)))
    case MatterField => Ok(e.(matterState := MatterFromRealName(value)))
    case AtomicMassField =>
      if IsDoubleLiteral(value) then Ok(e.(atomicMass := Literal(value))) else Err(BadDouble(value))
  }

  /** One property: the field of that name, if `Element` declares one, is assigned; otherwise nothing happens. */
  function SetField(e: Element, field: string, value: string): Result<Element, LoadError> {
    match FindField(DeclaredFields, field)
    case None => Ok(e)
    case Some(f) => Assign(e, f, value)
  }

  /** The search finds the first field of that name, and finds nothing only when no field has it. */
  lemma {:induction false} FindFieldSpec(fields: seq<Field>, name: string)
    ensures FindField(fields, name).Some? ==>
      FindField(fields, name).value in fields && FieldName(FindField(fields, name).value) == name
    ensures FindField(fields, name).None? ==> forall k :: 0 <= k < |fields| ==> FieldName(fields[k]) != name
  {
    if fields != [] && FieldName(fields[0]) != name {
      FindFieldSpec(fields[1..], name);
      forall k | 0 < k < |fields| ensures fields[k] == fields[1..][k - 1] { }
    }
  }

  /** The reflective lookup finds a field exactly for the six declared names, and the field it finds has that name. */
  lemma FindDeclaredField(name: string)
    ensures FindField(DeclaredFields, name).Some? <==> name in FieldNames
    ensures FindField(DeclaredFields, name).Some? ==> FieldName(FindField(DeclaredFields, name).value) == name
  {
    FindFieldSpec(DeclaredFields, name);
    assert FieldName(DeclaredFields[0]) == "atomicNumber" && FieldName(DeclaredFields[1]) == "name";
    assert FieldName(DeclaredFields[2]) == "symbol" && FieldName(DeclaredFields[3]) == "metallicProperties";
    assert FieldName(DeclaredFields[4]) == "matterState" && FieldName(DeclaredFields[5]) == "atomicMass";
  }

  /**
   * Field `field` of `e` holds what assigning `value` through that field
   * stores: the parsed `int`, the text itself for `name` and `symbol`, the
   * result of `fromRealName` (`None` for `null`) for the enums, and the parsed
   * `double` for `atomicMass`. A name that is no field constrains nothing.
   */
  predicate Stores(e: Element, field: string, value: string) {
    && (field == "atomicNumber" ==> ParseInt(value) == Some(e.atomicNumber))
    && (field == "name" ==> e.name == value)
    && (field == "symbol" ==> e.symbol == value)
    && (field == "metallicProperties" ==> e.metallicProperties == MetallicFromRealName(value))
    && (field == "matterState" ==> e.matterState == MatterFromRealName(value))
    && (field == "atomicMass" ==> e.atomicMass == Literal(value))
  }

  /** `e1` and `e2` hold the same value in field `field`. */
  predicate SameField(e1: Element, e2: Element, field: string) {
    && (field == "atomicNumber" ==> e1.atomicNumber == e2.atomicNumber)
    && (field == "name" ==> e1.name == e2.name)
    && (field == "symbol" ==> e1.symbol == e2.symbol)
    && (field == "metallicProperties" ==> e1.metallicProperties == e2.metallicProperties)
    && (field == "matterState" ==> e1.matterState == e2.matterState)
    && (field == "atomicMass" ==> e1.atomicMass == e2.atomicMass)
  }

  /**
   * A property naming no declared field leaves the element as it is; the
   * assignment throws exactly on a bad `int` or `double`; otherwise the named
   * field receives the value it stores, and no other field changes.
   */
  lemma SetFieldEffect(e: Element, field: string, value: string)
    ensures field !in FieldNames ==> SetField(e, field, value) == Ok(e)
    ensures SetField(e, field, value).Err? <==>
      (field == "atomicNumber" && ParseInt(value).None?) || (field == "atomicMass" && !IsDoubleLiteral(value))
    ensures SetField(e, field, value).Ok? ==> Stores(SetField(e, field, value).value, field, value)
    ensures SetField(e, field, value).Ok? ==> AgreeOutside(e, SetField(e, field, value).value, {field})
  {
    FindDeclaredField(field);
    var found := FindField(DeclaredFields, field);
    if found.Some? {
      assert SetField(e, field, value) == Assign(e, found.value, value);
      match found.value
      case AtomicNumberField => assert field == "atomicNumber";
      case NameField => assert field == "name";
      case SymbolField => assert field == "symbol";
      case MetallicField => assert field == "metallicProperties";
      case MatterField => assert field == "matterState";
      case AtomicMassField => assert field == "atomicMass";
    }
  }

  /** `e1` and `e2` differ at most in the fields named in `touched`. */
  predicate AgreeOutside(e1: Element, e2: Element, touched: set<string>) {
    && ("atomicNumber" !in touched ==> e1.atomicNumber == e2.atomicNumber)
    && ("name" !in touched ==> e1.name == e2.name)
    && ("symbol" !in touched ==> e1.symbol == e2.symbol)
    && ("metallicProperties" !in touched ==> e1.metallicProperties == e2.metallicProperties)
    && ("matterState" !in touched ==> e1.matterState == e2.matterState)
    && ("atomicMass" !in touched ==> e1.atomicMass == e2.atomicMass)
  }

  /** A property as split and trimmed, or the exception that splitting it raised. */
  type Prop = Result<(string, string), LoadError>

  /** The properties of a line, each split and trimmed. */
  function Properties(line: string): (r: seq<Prop>)
    ensures |r| == |Segments(line)|
  {
    var segments := Segments(line);
    seq(|segments|, j requires 0 <= j < |segments| => Property(segments[j]))
  }

  /** Property `j` of a line is segment `j` split and trimmed. */
  lemma PropertyAt(line: string, j: nat)
    requires j < |Segments(line)|
    ensures Properties(line)[j] == Property(Segments(line)[j])
  {
  }

  /** One pass of the inner loop of `loadElements`. */
  function ApplyProperty(e: Element, p: Prop): Result<Element, LoadError> {
    match p
    case Err(err) => Err(err)
    case Ok((field, value)) => SetField(e, field, value)
  }

  /**
   * The inner loop of `loadElements`, stopping at the first exception: all
   * properties but the last, then the last one on its own.
   */
  function ApplyProperties(e: Element, props: seq<Prop>): Result<Element, LoadError>
    decreases |props|
  {
    if props == [] then Ok(e)
    else if |props| == 1 then ApplyProperty(e, props[0])
    else
      match ApplyProperties(e, props[..|props| - 1])
      case Err(err) => Err(err)
      case Ok(e') => ApplyProperties(e', [props[|props| - 1]])
  }

  /** One more pass of the inner loop, after the first `p` passes succeeded. */
  lemma ApplyPropertiesStep(e: Element, props: seq<Prop>, p: nat, e': Element)
    requires p < |props| && ApplyProperties(e, props[..p]) == Ok(e')
    ensures ApplyProperties(e, props[..p + 1]) == ApplyProperty(e', props[p])
  {
    assert props[..p + 1][..p] == props[..p];
  }

  /** A line that parsed had all but its last property parse, and the last one applied to that result. */
  lemma ApplyPropertiesLast(e: Element, props: seq<Prop>, e': Element)
    requires props != [] && ApplyProperties(e, props) == Ok(e')
    ensures ApplyProperties(e, props[..|props| - 1]).Ok?
    ensures ApplyProperties(ApplyProperties(e, props[..|props| - 1]).value, [props[|props| - 1]]) == Ok(e')
  {
    if |props| == 1 {
      assert props == [props[0]];
    }
  }

  /** One property that applied was split, stores its value in the field it names, and changes no other field. */
  lemma SinglePropertyEffect(e: Element, p: Prop, e': Element)
    requires ApplyProperties(e, [p]) == Ok(e')
    ensures p.Ok? && AgreeOutside(e, e', {p.value.0})
    ensures p.Ok? && Stores(e', p.value.0, p.value.1)
  {
    assert ApplyProperty(e, p) == Ok(e');
    SetFieldEffect(e, p.value.0, p.value.1);
  }

  /** One line of the file: a fresh element numbered `counter`, then its properties in order. */
  function ParseLine(line: string, counter: int): Result<Element, LoadError> {
    ApplyProperties(EmptyElement.(atomicNumber := counter), Properties(line))
  }

  /** Each line parsed on its own, line `k` (from 0) with the counter value `k + 1` it is read with. */
  function LineResults(lines: seq<string>): (r: seq<Result<Element, LoadError>>)
    ensures |r| == |lines|
  {
    seq(|lines|, k requires 0 <= k < |lines| => ParseLine(lines[k], k + 1))
  }

  /** Line `k` of the results is line `k` parsed with counter `k + 1`. */
  lemma LineResultAt(lines: seq<string>, k: nat)
    requires k < |lines|
    ensures LineResults(lines)[k] == ParseLine(lines[k], k + 1)
  {
  }

  /** The elements appended by `loadElements`, and the exception that stopped it, if any. */
  datatype Loaded = Loaded(elements: seq<Element>, failure: Option<LoadError>)

  /**
   * The outer loop of `loadElements` over the per-line results: the first
   * line that throws ends the load, and the elements of the lines before it
   * remain appended.
   */
  function Collect(results: seq<Result<Element, LoadError>>): (r: Loaded)
    ensures |r.elements| <= |results|
    ensures r.failure.None? ==> |r.elements| == |results|
    ensures r.failure.Some? ==> |r.elements| < |results| && results[|r.elements|] == Err(r.failure.value)
  {
    if results == [] then Loaded([], None)
    else
      var previous := Collect(results[..|results| - 1]);
      if previous.failure.Some? then previous
      else
        match results[|results| - 1]
        case Err(err) => Loaded(previous.elements, Some(err))
        case Ok(e) => Loaded(previous.elements + [e], None)
  }

  /** Element k of the list is the successful result of line k. */
  lemma {:induction false} CollectedElements(results: seq<Result<Element, LoadError>>)
    ensures forall k :: 0 <= k < |Collect(results).elements| ==> results[k] == Ok(Collect(results).elements[k])
  {
    if results != [] {
      var init := results[..|results| - 1];
      CollectedElements(init);
      forall k | 0 <= k < |Collect(init).elements| ensures results[k] == init[k] { }
    }
  }

  /** `loadElements` on the lines of the file. */
  function Load(lines: seq<string>): Loaded {
    Collect(LineResults(lines))
  }

  /** The property sets field `field`. */
  predicate Names(p: Prop, field: string) {
    p.Ok? && p.value.0 == field
  }

  /** The fields that some property of `props` assigns. */
  function Touched(props: seq<Prop>): set<string> {
    set j | 0 <= j < |props| && props[j].Ok? :: props[j].value.0
  }

  /** A field that no property names keeps the value it had before the properties were applied. */
  lemma {:induction false} ApplyPropertiesFrame(e: Element, props: seq<Prop>, e': Element)
    requires ApplyProperties(e, props) == Ok(e')
    ensures AgreeOutside(e, e', Touched(props))
  {
    if props != [] {
      var n := |props| - 1;
      var init := props[..n];
      ApplyPropertiesLast(e, props, e');
      var mid := ApplyProperties(e, init).value;
      ApplyPropertiesFrame(e, init, mid);
      SinglePropertyEffect(mid, props[n], e');
      assert Touched(init) <= Touched(props) by {
        forall j | 0 <= j < n ensures props[j] == init[j] { }
      }
      assert props[n].value.0 in Touched(props);
    }
  }

  /** No property after `j` names `field`, so the value of `field` after property `j` is the final one. */
  lemma {:induction false} FieldKeptAfter(e: Element, props: seq<Prop>, e': Element, j: nat, field: string)
    requires ApplyProperties(e, props) == Ok(e')
    requires j < |props|
    requires forall l :: j < l < |props| ==> !Names(props[l], field)
    ensures ApplyProperties(e, props[..j + 1]).Ok?
    ensures SameField(ApplyProperties(e, props[..j + 1]).value, e', field)
  {
    var n := |props| - 1;
    if j == n {
      assert props[..j + 1] == props;
    } else {
      var init := props[..n];
      ApplyPropertiesLast(e, props, e');
      var mid := ApplyProperties(e, init).value;
      SinglePropertyEffect(mid, props[n], e');
      assert !Names(props[n], field);
      forall l | j < l < |init| ensures !Names(init[l], field) {
        assert init[l] == props[l];
      }
      FieldKeptAfter(e, init, mid, j, field);
      assert init[..j + 1] == props[..j + 1];
    }
  }

  /** The last property that names a field decides the value of that field. */
  lemma LastPropertyWins(e: Element, props: seq<Prop>, e': Element, j: nat, field: string)
    requires ApplyProperties(e, props) == Ok(e')
    requires LastNaming(props, j, field)
    ensures Stores(e', field, props[j].value.1)
  {
    FieldKeptAfter(e, props, e', j, field);
    var prefix := props[..j + 1];
    var after := ApplyProperties(e, prefix).value;
    ApplyPropertiesLast(e, prefix, after);
    assert prefix[j] == props[j];
    SinglePropertyEffect(ApplyProperties(e, prefix[..j]).value, props[j], after);
  }

  /**
   * Every field of a parsed element holds what the last property naming it
   * stores; a field no property names keeps its default, and the atomic
   * number, unless a property names it, is the line counter.
   */
  lemma ParsedElementFields(line: string, counter: int, e: Element)
    requires ParseLine(line, counter) == Ok(e)
    ensures AgreeOutside(EmptyElement.(atomicNumber := counter), e, Touched(Properties(line)))
    ensures "atomicNumber" !in Touched(Properties(line)) ==> e.atomicNumber == counter
    ensures forall field, j :: LastNaming(Properties(line), j, field) ==>
      Stores(e, field, Properties(line)[j].value.1)
  {
    var props := Properties(line);
    ApplyPropertiesFrame(EmptyElement.(atomicNumber := counter), props, e);
    forall field, j | LastNaming(props, j, field)
      ensures Stores(e, field, props[j].value.1)
    {
      LastPropertyWins(EmptyElement.(atomicNumber := counter), props, e, j, field);
    }
  }

  /** Property `j` is the last one that names `field`. */
  predicate LastNaming(props: seq<Prop>, j: int, field: string) {
    0 <= j < |props| && Names(props[j], field) && forall l :: j < l < |props| ==> !Names(props[l], field)
  }

  /** The braces around a line of the data file do not change what it parses to. */
  lemma WrappedLine(line: string, counter: int)
    ensures ParseLine("{" + line + "}", counter) == ParseLine(line, counter)
  {
    RemoveBracesWrapped(line);
    assert Segments("{" + line + "}") == Segments(line);
    assert Properties("{" + line + "}") == Properties(line);
  }

  /**
   * A line holding one property, written as a name, a `:` and a nonempty
   * value without braces, `;` or further `:`, sets the field of that name to
   * that value, both trimmed: "name: H" sets `name` to "H".
   */
  lemma SinglePropertyLine(name: string, value: string, counter: int)
    requires ':' !in name && ':' !in value && value != ""
    requires ';' !in name && ';' !in value
    requires '{' !in name && '}' !in name && '{' !in value && '}' !in value
    ensures ParseLine(name + ":" + value, counter) == SetField(EmptyElement.(atomicNumber := counter), Trim(name), Trim(value))
  {
    var line := name + ":" + value;
    RemoveBracesNoBraces(line);
    assert ';' !in line;
    assert Segments(line) == [line];
    PropertyOfNameValue(name, value);
    assert Properties(line) == [Ok((Trim(name), Trim(value)))];
  }

  /** The same line as the data file writes it, wrapped in braces: "{name: H}" sets `name` to "H". */
  lemma BracedPropertyLine(name: string, value: string, counter: int)
    requires ':' !in name && ':' !in value && value != ""
    requires ';' !in name && ';' !in value
    requires '{' !in name && '}' !in name && '{' !in value && '}' !in value
    ensures ParseLine("{" + name + ":" + value + "}", counter) == SetField(EmptyElement.(atomicNumber := counter), Trim(name), Trim(value))
  {
    var line := name + ":" + value;
    assert "{" + name + ":" + value + "}" == "{" + line + "}";
    WrappedLine(line, counter);
    SinglePropertyLine(name, value, counter);
  }

  /** Removing braces introduces no character that was not there. */
  lemma {:induction false} RemoveBracesKeeps(line: string, c: char)
    requires c !in line
    ensures c !in RemoveBraces(line)
    decreases |line|
  {
    if line != [] {
      assert c !in line[1..];
      RemoveBracesKeeps(line[1..], c);
    }
  }

  /** A line with neither `;` nor `:`, the empty line among them, throws. */
  lemma LineWithoutColonFails(line: string, counter: int)
    requires ':' !in line && ';' !in line
    ensures ParseLine(line, counter) == Err(MissingValue(RemoveBraces(line)))
  {
    var stripped := RemoveBraces(line);
    RemoveBracesKeeps(line, ';');
    RemoveBracesKeeps(line, ':');
    assert Segments(line) == [stripped];
    assert Property(stripped) == Err(MissingValue(stripped));
    assert Properties(line) == [Err(MissingValue(stripped))];
    SingleFailingProperty(EmptyElement.(atomicNumber := counter), MissingValue(stripped));
  }

  lemma SingleFailingProperty(e: Element, err: LoadError)
    ensures ApplyProperties(e, [Err(err)]) == Err(err)
  {
    var props: seq<Prop> := [Err(err)];
    assert props[..0] == [];
  }

  /** The load stops with no exception exactly when every line parses. */
  lemma LoadSucceedsIff(lines: seq<string>)
    ensures Load(lines).failure.None? <==> forall k :: 0 <= k < |lines| ==> ParseLine(lines[k], k + 1).Ok?
  {
    var results := LineResults(lines);
    CollectedResults(results);
    forall k | 0 <= k < |lines| ensures results[k] == ParseLine(lines[k], k + 1) {
      LineResultAt(lines, k);
    }
  }

  /**
   * The load appends one element per line, each the parse of its own line
   * with the counter, in the order of the lines.
   */
  lemma LoadedElementsParse(lines: seq<string>)
    ensures forall k :: 0 <= k < |Load(lines).elements| ==> ParseLine(lines[k], k + 1) == Ok(Load(lines).elements[k])
  {
    var results := LineResults(lines);
    CollectedResults(results);
    forall k | 0 <= k < |lines| ensures results[k] == ParseLine(lines[k], k + 1) {
      LineResultAt(lines, k);
    }
  }

  /** A load that throws stops at the first line that does not parse, right after the elements it kept. */
  lemma LoadFailureLine(lines: seq<string>)
    ensures Load(lines).failure.Some? ==>
      var n := |Load(lines).elements|;
      n < |lines| && ParseLine(lines[n], n + 1) == Err(Load(lines).failure.value)
  {
    var results := LineResults(lines);
    var loaded := Collect(results);
    if loaded.failure.Some? {
      LineResultAt(lines, |loaded.elements|);
    }
  }

  /** `LoadSucceedsIff` and `LoadedElementsParse` on the per-line results, whatever they are. */
  lemma CollectedResults(results: seq<Result<Element, LoadError>>)
    ensures Collect(results).failure.None? <==> forall k :: 0 <= k < |results| ==> results[k].Ok?
    ensures forall k :: 0 <= k < |Collect(results).elements| ==> results[k] == Ok(Collect(results).elements[k])
  {
    CollectedElements(results);
  }

  /** One more pass of the outer loop of `loadElements` on line `n`, read with the counter `n + 1`. */
  lemma LoadStep(lines: seq<string>, n: nat, parsed: Result<Element, LoadError>)
    requires n < |lines| && Collect(LineResults(lines)[..n]).failure.None?
    requires parsed == ParseLine(lines[n], n + 1)
    ensures parsed.Err? ==> Load(lines) == Loaded(Collect(LineResults(lines)[..n]).elements, Some(parsed.error))
    ensures parsed.Ok? ==>
      Collect(LineResults(lines)[..n + 1]) == Loaded(Collect(LineResults(lines)[..n]).elements + [parsed.value], None)
  {
    var results := LineResults(lines);
    LineResultAt(lines, n);
    CollectStep(results, n);
    if parsed.Err? {
      CollectAfterFailure(results, n + 1);
    }
  }

  /**
   * A load whose first line parses and whose second line throws reports the
   * exception and still leaves the first line's element appended.
   */
  lemma FailedLoadKeepsEarlierLines(lines: seq<string>)
    requires |lines| >= 2 && ParseLine(lines[0], 1).Ok? && ParseLine(lines[1], 2).Err?
    ensures Load(lines) == Loaded([ParseLine(lines[0], 1).value], Some(ParseLine(lines[1], 2).error))
  {
    assert LineResults(lines)[..0] == [];
    LoadStep(lines, 0, ParseLine(lines[0], 1));
    LoadStep(lines, 1, ParseLine(lines[1], 2));
  }

  /** One more pass of the outer loop, after the first `n` lines loaded. */
  lemma CollectStep(results: seq<Result<Element, LoadError>>, n: nat)
    requires n < |results| && Collect(results[..n]).failure.None?
    ensures results[n].Err? ==> Collect(results[..n + 1]) == Loaded(Collect(results[..n]).elements, Some(results[n].error))
    ensures results[n].Ok? ==> Collect(results[..n + 1]) == Loaded(Collect(results[..n]).elements + [results[n].value], None)
  {
    assert results[..n + 1][..n] == results[..n];
  }

  /** Once a property throws, the rest of the line is not looked at. */
  lemma {:induction false} ApplyPropertiesAfterFailure(e: Element, props: seq<Prop>, m: nat, err: LoadError)
    requires m <= |props| && ApplyProperties(e, props[..m]) == Err(err)
    ensures ApplyProperties(e, props) == Err(err)
    decreases |props| - m
  {
    if m < |props| {
      assert props[..m + 1][..m] == props[..m];
      ApplyPropertiesAfterFailure(e, props, m + 1, err);
    } else {
      assert props[..m] == props;
    }
  }

  /** Once a line throws, the lines after it are not looked at. */
  lemma {:induction false} CollectAfterFailure(results: seq<Result<Element, LoadError>>, m: nat)
    requires m <= |results| && Collect(results[..m]).failure.Some?
    ensures Collect(results) == Collect(results[..m])
    decreases |results| - m
  {
    if m < |results| {
      assert results[..m + 1][..m] == results[..m];
      CollectAfterFailure(results, m + 1);
    } else {
      assert results[..m] == results;
    }
  }
}

=== FILE: levenshtein.dfy ===
/**
 * `ElementData.levenshteinDistance`: the edit distance of two case-folded
 * strings, computed with a single row of costs that is overwritten in place.
 */
module Levenshtein {
  import opened Wrappers
  import opened Text

  /** `Math.min`. */
  function Min(a: int, b: int): int {
    if a <= b then a else b
  }

  /**
   * Cell (i, j) of the cost table: the classic edit distance of `a[..i]` and
   * `b[..j]`, each insertion, deletion and substitution costing 1.
   */
  function Cost(a: string, b: string, i: int, j: int): int
    requires 0 <= i <= |a| && 0 <= j <= |b|
    decreases i + j
  {
    if i == 0 then j
    else if j == 0 then i
    else Step(Cost(a, b, i - 1, j), Cost(a, b, i, j - 1), Cost(a, b, i - 1, j - 1), a[i - 1] == b[j - 1])
  }

  /**
   * One cell from its upper, left and upper-left neighbours: a deletion or
   * an insertion costs 1, a substitution costs 1 unless the characters agree.
   */
  function Step(up: int, left: int, diagonal: int, same: bool): int {
    Min(1 + Min(up, left), if same then diagonal else diagonal + 1)
  }

  /** The edit distance of two whole strings. */
  function EditDistance(a: string, b: string): int {
    Cost(a, b, |a|, |b|)
  }

  /** What `levenshteinDistance` returns: `Integer.MAX_VALUE` for a null argument. */
  function Distance(string1: Option<string>, string2: Option<string>): int {
    if string1.None? || string2.None? then IntMax
    else EditDistance(Lower(string1.value), Lower(string2.value))
  }

  method LevenshteinDistance(string1: Option<string>, string2: Option<string>) returns (d: int)
    ensures string1.None? || string2.None? ==> d == IntMax
    ensures string1.Some? && string2.Some? ==> d == EditDistance(Lower(string1.value), Lower(string2.value))
  {
    if string1.None? || string2.None? {
      return IntMax;
    }
    var s1 := Lower(string1.value);
    var s2 := Lower(string2.value);
    var costs := new int[|s2| + 1];
    for j := 0 to costs.Length
      invariant forall k :: 0 <= k < j ==> costs[k] == Cost(s1, s2, 0, k)
    {
      costs[j] := j;
    }
    for i := 1 to |s1| + 1
      invariant forall k :: 0 <= k <= |s2| ==> costs[k] == Cost(s1, s2, i - 1, k)
    {
      NextRow(costs, s1, s2, i);
    }
    return costs[|s2|];
  }

  /** The body of the outer loop: overwrite row `i - 1` of the cost table with row `i`. */
  method NextRow(costs: array<int>, s1: string, s2: string, i: nat)
    requires 1 <= i <= |s1| && costs.Length == |s2| + 1
    requires forall k :: 0 <= k <= |s2| ==> costs[k] == Cost(s1, s2, i - 1, k)
    modifies costs
    ensures forall k :: 0 <= k <= |s2| ==> costs[k] == Cost(s1, s2, i, k)
  {
    costs[0] := i;
    var nw := i - 1;
    for j := 1 to |s2| + 1
      invariant forall k :: 0 <= k < j ==> costs[k] == Cost(s1, s2, i, k)
      invariant forall k :: j <= k <= |s2| ==> costs[k] == Cost(s1, s2, i - 1, k)
      invariant nw == Cost(s1, s2, i - 1, j - 1)
    {
      var cj := Min(1 + Min(costs[j], costs[j - 1]), if s1[i - 1] == s2[j - 1] then nw else nw + 1);
      nw := costs[j];
      costs[j] := cj;
    }
  }

  lemma {:induction false} CostUpperBound(a: string, b: string, i: int, j: int)
    requires 0 <= i <= |a| && 0 <= j <= |b|
    ensures Cost(a, b, i, j) <= if i <= j then j else i
    decreases i + j
  {
    if i > 0 && j > 0 {
      CostUpperBound(a, b, i - 1, j - 1);
      var diagonal := Cost(a, b, i - 1, j - 1) + if a[i - 1] == b[j - 1] then 0 else 1;
      assert Cost(a, b, i, j) <= diagonal;
    }
  }

  lemma {:induction false} CostLowerBound(a: string, b: string, i: int, j: int)
    requires 0 <= i <= |a| && 0 <= j <= |b|
    ensures Cost(a, b, i, j) >= if i <= j then j - i else i - j
    decreases i + j
  {
    if i > 0 && j > 0 {
      CostLowerBound(a, b, i - 1, j);
      CostLowerBound(a, b, i, j - 1);
      CostLowerBound(a, b, i - 1, j - 1);
    }
  }

  /** Swapping the upper and left neighbours does not change a cell. */
  lemma StepSymmetric(up: int, left: int, diagonal: int, same: bool)
    ensures Step(up, left, diagonal, same) == Step(left, up, diagonal, same)
  {
  }

  lemma {:induction false} CostSymmetric(a: string, b: string, i: int, j: int)
    requires 0 <= i <= |a| && 0 <= j <= |b|
    ensures Cost(a, b, i, j) == Cost(b, a, j, i)
    decreases i + j
  {
    if i > 0 && j > 0 {
      CostSymmetric(a, b, i - 1, j);
      CostSymmetric(a, b, i, j - 1);
      CostSymmetric(a, b, i - 1, j - 1);
      StepSymmetric(Cost(a, b, i - 1, j), Cost(a, b, i, j - 1), Cost(a, b, i - 1, j - 1), a[i - 1] == b[j - 1]);
    }
  }

  /** The diagonal cell of two equal prefixes is 0. */
  lemma {:induction false} CostZeroOnEqualPrefixes(a: string, b: string, i: int)
    requires 0 <= i <= |a| && i <= |b|
    requires forall k :: 0 <= k < i ==> a[k] == b[k]
    ensures Cost(a, b, i, i) == 0
  {
    if i > 0 {
      CostZeroOnEqualPrefixes(a, b, i - 1);
      CostLowerBound(a, b, i - 1, i);
      CostLowerBound(a, b, i, i - 1);
    }
  }

  /** An inner cell is 0 only through a free substitution from a 0. */
  lemma CellZero(a: string, b: string, i: int, j: int)
    requires 0 < i <= |a| && 0 < j <= |b|
    requires Cost(a, b, i, j) == 0
    ensures a[i - 1] == b[j - 1] && Cost(a, b, i - 1, j - 1) == 0
  {
    CostLowerBound(a, b, i - 1, j);
    CostLowerBound(a, b, i, j - 1);
    CostLowerBound(a, b, i - 1, j - 1);
  }

  /** A cell is 0 only on the diagonal, and only when the prefixes agree. */
  lemma {:induction false} CostZeroOnlyOnEqualPrefixes(a: string, b: string, i: int, j: int)
    requires 0 <= i <= |a| && 0 <= j <= |b|
    requires Cost(a, b, i, j) == 0
    ensures i == j && forall k :: 0 <= k < i ==> a[k] == b[k]
    decreases i + j
  {
    if i > 0 && j > 0 {
      CellZero(a, b, i, j);
      CostZeroOnlyOnEqualPrefixes(a, b, i - 1, j - 1);
    }
  }

  lemma CostZeroIff(a: string, b: string, i: int, j: int)
    requires 0 <= i <= |a| && 0 <= j <= |b|
    ensures Cost(a, b, i, j) == 0 <==> i == j && a[..i] == b[..j]
  {
    if i == j && a[..i] == b[..j] {
      forall k | 0 <= k < i ensures a[k] == b[k] {
        assert a[k] == a[..i][k] && b[k] == b[..j][k];
      }
      CostZeroOnEqualPrefixes(a, b, i);
    }
    if Cost(a, b, i, j) == 0 {
      CostZeroOnlyOnEqualPrefixes(a, b, i, j);
      assert a[..i] == b[..j];
    }
  }

  /** d(s, s) = 0, and d(a, b) = 0 only when `a` and `b` are equal. */
  lemma EditDistanceZeroIff(a: string, b: string)
    ensures EditDistance(a, b) == 0 <==> a == b
  {
    CostZeroIff(a, b, |a|, |b|);
    assert a[..|a|] == a && b[..|b|] == b;
  }

  /** d is symmetric. */
  lemma EditDistanceSymmetric(a: string, b: string)
    ensures EditDistance(a, b) == EditDistance(b, a)
  {
    CostSymmetric(a, b, |a|, |b|);
  }

  /** |len a - len b| <= d <= max(len a, len b); against the empty string d is the other length. */
  lemma EditDistanceBounds(a: string, b: string)
    ensures |a| <= |b| ==> |b| - |a| <= EditDistance(a, b) <= |b|
    ensures |b| <= |a| ==> |a| - |b| <= EditDistance(a, b) <= |a|
    ensures EditDistance([], b) == |b| && EditDistance(a, []) == |a|
  {
    CostLowerBound(a, b, |a|, |b|);
    CostUpperBound(a, b, |a|, |b|);
  }

  /** `levenshteinDistance` with a null argument returns `Integer.MAX_VALUE`; otherwise a value within the bounds. */
  lemma DistanceRange(string1: Option<string>, string2: Option<string>)
    ensures string1.None? || string2.None? ==> Distance(string1, string2) == IntMax
    ensures string1.Some? && string2.Some? ==>
      0 <= Distance(string1, string2) <= (if |string1.value| <= |string2.value| then |string2.value| else |string1.value|)
  {
    if string1.Some? && string2.Some? {
      EditDistanceBounds(Lower(string1.value), Lower(string2.value));
    }
  }

  /** `levenshteinDistance` is symmetric, also when an argument is null. */
  lemma DistanceSymmetric(string1: Option<string>, string2: Option<string>)
    ensures Distance(string1, string2) == Distance(string2, string1)
  {
    if string1.Some? && string2.Some? {
      EditDistanceSymmetric(Lower(string1.value), Lower(string2.value));
    }
  }

  /** `levenshteinDistance` ignores case: it is zero exactly for strings equal ignoring case. */
  lemma DistanceIgnoresCase(a: string, b: string)
    ensures Distance(Some(a), Some(b)) == Distance(Some(Lower(a)), Some(b)) == Distance(Some(a), Some(Lower(b)))
    ensures Distance(Some(a), Some(b)) == 0 <==> EqualsIgnoreCase(a, b)
  {
    LowerIdempotent(a);
    LowerIdempotent(b);
    EditDistanceZeroIff(Lower(a), Lower(b));
  }

  /** The reference values book/back and heir/hair of the test suite. */
  lemma ReferenceDistances()
    ensures Distance(Some("book"), Some("back")) == 2
    ensures Distance(Some("heir"), Some("hair")) == 1
  {
    LowerOfLower("book");
    LowerOfLower("back");
    LowerOfLower("heir");
    LowerOfLower("hair");
    BookBack();
    HeirHair();
  }

  lemma BookBack()
    ensures EditDistance("book", "back") == 2
  {
    var a, b := "book", "back";
    assert Cost(a, b, 1, 1) == 0;
    assert Cost(a, b, 1, 2) == 1;
    assert Cost(a, b, 1, 3) == 2;
    assert Cost(a, b, 1, 4) == 3;
    assert Cost(a, b, 2, 1) == 1;
    assert Cost(a, b, 2, 2) == 1;
    assert Cost(a, b, 2, 3) == 2;
    assert Cost(a, b, 2, 4) == 3;
    assert Cost(a, b, 3, 1) == 2;
    assert Cost(a, b, 3, 2) == 2;
    assert Cost(a, b, 3, 3) == 2;
    assert Cost(a, b, 3, 4) == 3;
    assert Cost(a, b, 4, 1) == 3;
    assert Cost(a, b, 4, 2) == 3;
    assert Cost(a, b, 4, 3) == 3;
    assert Cost(a, b, 4, 4) == 2;
  }

  lemma HeirHair()
    ensures EditDistance("heir", "hair") == 1
  {
    var a, b := "heir", "hair";
    assert Cost(a, b, 1, 1) == 0;
    assert Cost(a, b, 1, 2) == 1;
    assert Cost(a, b, 1, 3) == 2;
    assert Cost(a, b, 1, 4) == 3;
    assert Cost(a, b, 2, 1) == 1;
    assert Cost(a, b, 2, 2) == 1;
    assert Cost(a, b, 2, 3) == 2;
    assert Cost(a, b, 2, 4) == 3;
    assert Cost(a, b, 3, 1) == 2;
    assert Cost(a, b, 3, 2) == 2;
    assert Cost(a, b, 3, 3) == 1;
    assert Cost(a, b, 3, 4) == 2;
    assert Cost(a, b, 4, 1) == 3;
    assert Cost(a, b, 4, 2) == 3;
    assert Cost(a, b, 4, 3) == 2;
    assert Cost(a, b, 4, 4) == 1;
  }
}

=== FILE: lookup.dfy ===
/**
 * What `ElementData.lookupElement` returns, as functions of the element list:
 * resolve a key and a mode ("Atomic #", "Name" or "Symbol") to one element,
 * `EmptyElement` standing for "not found".
 */
module LookupEngine {
  import opened Wrappers
  import opened Text
  import opened Levenshtein
  import opened Elements

  const AtomicNumberMode: string := "Atomic #"
  const NameMode: string := "Name"
  const SymbolMode: string := "Symbol"

  /** The test inside the exact-match loop. */
  predicate Matches(e: Element, key: string, mode: string) {
    (EqualsIgnoreCase(e.name, key) && mode == NameMode) || (EqualsIgnoreCase(e.symbol, key) && mode == SymbolMode)
  }

  /** The index at which the exact-match loop returns, if it does. */
  function FirstMatch(elements: seq<Element>, key: string, mode: string): (r: Option<nat>)
    ensures r.Some? ==> r.value < |elements| && Matches(elements[r.value], key, mode)
    ensures r.Some? ==> forall j :: 0 <= j < r.value ==> !Matches(elements[j], key, mode)
    ensures r.None? ==> forall j :: 0 <= j < |elements| ==> !Matches(elements[j], key, mode)
  {
    if elements == [] then None
    else if Matches(elements[0], key, mode) then Some(0)
    else match FirstMatch(elements[1..], key, mode)
      case None => None
      case Some(i) => Some(i + 1)
  }

  /** The distance of each element's name to the key. */
  function Distances(elements: seq<Element>, key: string): (ds: seq<int>)
    ensures |ds| == |elements|
  {
    seq(|elements|, k requires 0 <= k < |elements| => Distance(Some(elements[k].name), Some(key)))
  }

  /**
   * The closest-name loop over a list of distances: the index it settles on
   * and `smallestDistance` afterwards. It starts from `Integer.MAX_VALUE` and
   * moves only on a strictly smaller distance.
   */
  function FirstMinimum(ds: seq<int>): (r: (Option<nat>, int))
    ensures r.0.None? ==> r.1 == IntMax && forall k :: 0 <= k < |ds| ==> ds[k] >= IntMax
    ensures r.0.Some? ==> r.0.value < |ds| && r.1 == ds[r.0.value] < IntMax
    ensures r.0.Some? ==> forall k :: 0 <= k < |ds| ==> ds[k] >= r.1
    ensures r.0.Some? ==> forall k :: 0 <= k < r.0.value ==> ds[k] > r.1
  {
    if ds == [] then (None, IntMax)
    else
      var (best, smallest) := FirstMinimum(ds[..|ds| - 1]);
      assert forall k :: 0 <= k < |ds| - 1 ==> ds[..|ds| - 1][k] == ds[k];
      if ds[|ds| - 1] < smallest then (Some(|ds| - 1), ds[|ds| - 1]) else (best, smallest)
  }

  /** The element the closest-name loop returns. */
  function Closest(elements: seq<Element>, key: string): Element {
    match FirstMinimum(Distances(elements, key)).0
    case None => EmptyElement
    case Some(i) => elements[i]
  }

  /** `lookupElement(property, propertyType)`; `None` stands for a `null` argument. */
  function Lookup(elements: seq<Element>, property: Option<string>, propertyType: Option<string>): Element {
    if property.None? || |Trim(property.value)| == 0 || propertyType.None? then EmptyElement
    else
      var key, mode := Trim(property.value), propertyType.value;
      var number := ParseInt(key);
      if mode == AtomicNumberMode && number.Some? then
        if number.value < 1 || number.value > |elements| then EmptyElement else elements[number.value - 1]
      else
        match FirstMatch(elements, key, mode)
        case Some(i) => elements[i]
        case None => if mode == NameMode then Closest(elements, key) else EmptyElement
  }

  /** A null key, a blank key or a null mode give the empty element. */
  lemma LookupInvalidInput(elements: seq<Element>, property: Option<string>, propertyType: Option<string>)
    requires property.None? || propertyType.None? || forall k :: 0 <= k < |property.value| ==> IsBlank(property.value[k])
    ensures Lookup(elements, property, propertyType) == EmptyElement
  {
    if property.Some? {
      TrimEmptyIffBlank(property.value);
    }
  }

  /**
   * "Atomic #" mode: a key that parses to `n` within 1..|elements| gives
   * element `n - 1`; any other key gives the empty element.
   */
  lemma LookupAtomicNumber(elements: seq<Element>, property: string)
    ensures var key := Trim(property);
      Lookup(elements, Some(property), Some(AtomicNumberMode)) ==
        if ParseInt(key).Some? && 1 <= ParseInt(key).value <= |elements| then elements[ParseInt(key).value - 1]
        else EmptyElement
  {
    var key := Trim(property);
    if key != [] && ParseInt(key).None? {
      assert FirstMatch(elements, key, AtomicNumberMode).None?;
    }
  }

  /** Looking up the decimal text of any position 1..|elements| finds the element there. */
  lemma LookupEveryPosition(elements: seq<Element>, n: int)
    requires 1 <= n <= |elements| && n <= IntMax
    ensures Lookup(elements, Some(DecimalString(n)), Some(AtomicNumberMode)) == elements[n - 1]
  {
    ParseDecimalString(n);
    LookupAtomicNumber(elements, DecimalString(n));
  }

  /** The decimal text of any number past the end of the list finds nothing. */
  lemma LookupPastEnd(elements: seq<Element>, n: int)
    requires |elements| < n <= IntMax
    ensures Lookup(elements, Some(DecimalString(n)), Some(AtomicNumberMode)) == EmptyElement
  {
    ParseDecimalString(n);
    LookupAtomicNumber(elements, DecimalString(n));
  }

  /**
   * "Name" and "Symbol" modes: the first element, in list order, whose name
   * (or symbol) equals the trimmed key ignoring case.
   */
  lemma LookupExact(elements: seq<Element>, property: string, mode: string, i: nat)
    requires mode == NameMode || mode == SymbolMode
    requires |Trim(property)| > 0
    requires i < |elements| && Matches(elements[i], Trim(property), mode)
    requires forall j :: 0 <= j < i ==> !Matches(elements[j], Trim(property), mode)
    ensures Lookup(elements, Some(property), Some(mode)) == elements[i]
  {
    assert |mode| < |AtomicNumberMode|;
    var r := FirstMatch(elements, Trim(property), mode);
    assert r.Some? && r.value == i;
  }

  /**
   * "Name" mode without an exact match: the element at the first index of
   * smallest edit distance to the key, or the empty element when the list is
   * empty (or every distance is `Integer.MAX_VALUE`).
   */
  lemma LookupClosestName(elements: seq<Element>, property: string)
    requires |Trim(property)| > 0
    requires forall j :: 0 <= j < |elements| ==> !EqualsIgnoreCase(elements[j].name, Trim(property))
    ensures var r := Lookup(elements, Some(property), Some(NameMode));
      var ds := Distances(elements, Trim(property));
      (r == EmptyElement && forall k :: 0 <= k < |ds| ==> ds[k] >= IntMax) ||
      (exists i :: 0 <= i < |elements| && r == elements[i] &&
        (forall k :: 0 <= k < |ds| ==> ds[k] >= ds[i]) && (forall k :: 0 <= k < i ==> ds[k] > ds[i]))
    ensures elements == [] ==> Lookup(elements, Some(property), Some(NameMode)) == EmptyElement
  {
    var key := Trim(property);
    assert FirstMatch(elements, key, NameMode).None?;
    match FirstMinimum(Distances(elements, key)).0
    case None =>
    case Some(i) =>
  }

  /** "Symbol" mode, and any mode other than the three, give the empty element when nothing matches exactly. */
  lemma LookupNoMatch(elements: seq<Element>, property: string, mode: string)
    requires mode != NameMode && mode != AtomicNumberMode
    requires forall j :: 0 <= j < |elements| ==> !Matches(elements[j], Trim(property), mode)
    ensures Lookup(elements, Some(property), Some(mode)) == EmptyElement
  {
  }

  /**
   * The closest-name fallback agrees with the exact scan: when some name
   * equals the key ignoring case, it picks the first such element, at
   * distance 0.
   */
  lemma ClosestAgreesWithExactName(elements: seq<Element>, key: string, i: nat)
    requires i < |elements| && EqualsIgnoreCase(elements[i].name, key)
    requires forall j :: 0 <= j < i ==> !EqualsIgnoreCase(elements[j].name, key)
    ensures Closest(elements, key) == elements[i]
  {
    var ds := Distances(elements, key);
    forall k | 0 <= k < |elements|
      ensures ds[k] == 0 <==> EqualsIgnoreCase(elements[k].name, key)
      ensures ds[k] >= 0
    {
      DistanceIgnoresCase(elements[k].name, key);
      DistanceRange(Some(elements[k].name), Some(key));
    }
    var r := FirstMinimum(ds);
    assert ds[i] == 0 < IntMax;
  }
}

=== FILE: real_names.dfy ===
/**
 * `ElementData.getRealName` and the two `fromRealName` lookups of the enums
 * `MetallicProperties` and `MatterState`.
 */
module RealNames {
  import opened Wrappers
  import opened Text

  datatype MetallicProperties = NonMetallic | Metalloid | Metallic | NotApplicable

  datatype MatterState = Solid | Liquid | Gas | Synthetic | NotApplicable

  /** `values()`, in declaration order. */
  const MetallicValues: seq<MetallicProperties> :=
    [MetallicProperties.NonMetallic, MetallicProperties.Metalloid, MetallicProperties.Metallic, MetallicProperties.NotApplicable]

  const MatterValues: seq<MatterState> :=
    [MatterState.Solid, MatterState.Liquid, MatterState.Gas, MatterState.Synthetic, MatterState.NotApplicable]

  /** `name()`: the constant's identifier in the Java source. */
  function MetallicName(v: MetallicProperties): string {
    match v
    case NonMetallic => "NON_METALLIC"
    case Metalloid => "METALLOID"
    case Metallic => "METALLIC"
    case NotApplicable => "NOT_APPLICABLE"
  }

  function MatterName(v: MatterState): string {
    match v
    case Solid => "SOLID"
    case Liquid => "LIQUID"
    case Gas => "GAS"
    case Synthetic => "SYNTHETIC"
    case NotApplicable => "NOT_APPLICABLE"
  }

  function Replace(s: string, from: char, to: char): (r: string)
    ensures |r| == |s|
  {
    seq(|s|, k requires 0 <= k < |s| => if s[k] == from then to else s[k])
  }

  /**
   * `getRealName` on a constant's identifier: "N/A" for `NOT_APPLICABLE`,
   * otherwise the first character as it is, then the rest in lower case with
   * every `_` turned into `-`.
   */
  function RealName(name: string): (r: string)
    requires name != []
    ensures name != "NOT_APPLICABLE" ==> |r| == |name| && r[0] == name[0]
  {
    if name == "NOT_APPLICABLE" then "N/A"
    else [name[0]] + Replace(Lower(name[1..]), '_', '-')
  }

  /** After its first character, a display name has no upper-case letter and no `_`. */
  lemma RealNameTail(name: string)
    requires name != [] && name != "NOT_APPLICABLE"
    ensures forall k :: 1 <= k < |RealName(name)| ==> !IsUpper(RealName(name)[k]) && RealName(name)[k] != '_'
  {
  }

  /** `toString`, which is `getRealName`; `MetallicDisplayName` proves each entry equal to `RealName(MetallicName(v))`. */
  function MetallicRealName(v: MetallicProperties): string {
    match v
    case NonMetallic => "Non-metallic"
    case Metalloid => "Metalloid"
    case Metallic => "Metallic"
    case NotApplicable => "N/A"
  }

  /** `toString`, which is `getRealName`; `MatterDisplayName` proves each entry equal to `RealName(MatterName(v))`. */
  function MatterRealName(v: MatterState): string {
    match v
    case Solid => "Solid"
    case Liquid => "Liquid"
    case Gas => "Gas"
    case Synthetic => "Synthetic"
    case NotApplicable => "N/A"
  }

  /**
   * The display name of an identifier is its first letter followed by the
   * rest in lower case, with `-` in place of each `_`.
   */
  lemma DisplayName(name: string, rest: string)
    requires name != [] && name != "NOT_APPLICABLE"
    requires |rest| == |name| - 1
    requires forall k :: 0 <= k < |rest| ==> rest[k] == if name[k + 1] == '_' then '-' else LowerChar(name[k + 1])
    ensures RealName(name) == [name[0]] + rest
  {
  }

  /** `getRealName` on each identifier other than `NOT_APPLICABLE`, one constant at a time. */
  lemma NonMetallicName()
    ensures RealName("NON_METALLIC") == "Non-metallic"
  {
    DisplayName("NON_METALLIC", "on-metallic");
  }

  lemma MetalloidName()
    ensures RealName("METALLOID") == "Metalloid"
  {
    DisplayName("METALLOID", "etalloid");
  }

  lemma MetallicIdentifierName()
    ensures RealName("METALLIC") == "Metallic"
  {
    DisplayName("METALLIC", "etallic");
  }

  lemma SolidName()
    ensures RealName("SOLID") == "Solid"
  {
    DisplayName("SOLID", "olid");
  }

  lemma LiquidName()
    ensures RealName("LIQUID") == "Liquid"
  {
    DisplayName("LIQUID", "iquid");
  }

  lemma GasName()
    ensures RealName("GAS") == "Gas"
  {
    DisplayName("GAS", "as");
  }

  lemma SyntheticName()
    ensures RealName("SYNTHETIC") == "Synthetic"
  {
    DisplayName("SYNTHETIC", "ynthetic");
  }

  /** `getRealName` on the identifier of a `MetallicProperties` constant gives its display name. */
  lemma MetallicDisplayName(v: MetallicProperties)
    ensures MetallicRealName(v) == RealName(MetallicName(v))
  {
    match v
    case NonMetallic => NonMetallicName();
    case Metalloid => MetalloidName();
    case Metallic => MetallicIdentifierName();
    case NotApplicable =>
  }

  /** `getRealName` on the identifier of a `MatterState` constant gives its display name. */
  lemma MatterDisplayName(v: MatterState)
    ensures MatterRealName(v) == RealName(MatterName(v))
  {
    match v
    case Solid => SolidName();
    case Liquid => LiquidName();
    case Gas => GasName();
    case Synthetic => SyntheticName();
    case NotApplicable =>
  }

  /** The stream filter and `findFirst` over `values()`: the first constant whose display name equals `s`. */
  function MetallicFromValues(values: seq<MetallicProperties>, s: string): (r: Option<MetallicProperties>)
    ensures r.Some? ==> r.value in values && MetallicRealName(r.value) == s
  {
    if values == [] then None
    else if MetallicRealName(values[0]) == s then Some(values[0])
    else MetallicFromValues(values[1..], s)
  }

  function MatterFromValues(values: seq<MatterState>, s: string): (r: Option<MatterState>)
    ensures r.Some? ==> r.value in values && MatterRealName(r.value) == s
  {
    if values == [] then None
    else if MatterRealName(values[0]) == s then Some(values[0])
    else MatterFromValues(values[1..], s)
  }

  /** `MetallicProperties.fromRealName`; `None` is the `null` it returns for an unknown name. */
  function MetallicFromRealName(s: string): Option<MetallicProperties> {
    MetallicFromValues(MetallicValues, s)
  }

  function MatterFromRealName(s: string): Option<MatterState> {
    MatterFromValues(MatterValues, s)
  }

  /** The search succeeds whenever some constant has that display name. */
  lemma {:induction false} MetallicFromValuesFinds(values: seq<MetallicProperties>, s: string, k: nat)
    requires k < |values| && MetallicRealName(values[k]) == s
    ensures MetallicFromValues(values, s).Some?
  {
    if MetallicRealName(values[0]) != s {
      assert values[1..][k - 1] == values[k];
      MetallicFromValuesFinds(values[1..], s, k - 1);
    }
  }

  lemma {:induction false} MatterFromValuesFinds(values: seq<MatterState>, s: string, k: nat)
    requires k < |values| && MatterRealName(values[k]) == s
    ensures MatterFromValues(values, s).Some?
  {
    if MatterRealName(values[0]) != s {
      assert values[1..][k - 1] == values[k];
      MatterFromValuesFinds(values[1..], s, k - 1);
    }
  }

  /** `fromRealName` finds a constant exactly for its display name, and returns that constant. */
  lemma MetallicRoundTrip(v: MetallicProperties, s: string)
    ensures MetallicFromRealName(MetallicRealName(v)) == Some(v)
    ensures MetallicFromRealName(s).Some? <==> s in {"Non-metallic", "Metalloid", "Metallic", "N/A"}
  {
    var values := MetallicValues;
    assert values[0] == MetallicProperties.NonMetallic && values[1] == MetallicProperties.Metalloid;
    assert values[2] == MetallicProperties.Metallic && values[3] == MetallicProperties.NotApplicable;
    var i := match v case NonMetallic => 0 case Metalloid => 1 case Metallic => 2 case NotApplicable => 3;
    MetallicFromValuesFinds(values, MetallicRealName(v), i);
    if s in {"Non-metallic", "Metalloid", "Metallic", "N/A"} {
      var j := if s == "Non-metallic" then 0 else if s == "Metalloid" then 1 else if s == "Metallic" then 2 else 3;
      MetallicFromValuesFinds(values, s, j);
    }
  }

  lemma MatterRoundTrip(v: MatterState, s: string)
    ensures MatterFromRealName(MatterRealName(v)) == Some(v)
    ensures MatterFromRealName(s).Some? <==> s in {"Solid", "Liquid", "Gas", "Synthetic", "N/A"}
  {
    var values := MatterValues;
    assert values[0] == MatterState.Solid && values[1] == MatterState.Liquid && values[2] == MatterState.Gas;
    assert values[3] == MatterState.Synthetic && values[4] == MatterState.NotApplicable;
    var i := match v case Solid => 0 case Liquid => 1 case Gas => 2 case Synthetic => 3 case NotApplicable => 4;
    MatterFromValuesFinds(values, MatterRealName(v), i);
    if s in {"Solid", "Liquid", "Gas", "Synthetic", "N/A"} {
      var j := if s == "Solid" then 0 else if s == "Liquid" then 1 else if s == "Gas" then 2 else if s == "Synthetic" then 3 else 4;
      MatterFromValuesFinds(values, s, j);
    }
  }
}

=== FILE: text.dfy ===
/**
 * The `java.lang.String` operations that ElementData.java relies on, restricted
 * to ASCII: `toLowerCase`, `equalsIgnoreCase`, `trim`, `replaceAll("\\{|}", "")`,
 * `split` on a one-character separator, and `Integer.parseInt`.
 */
module Text {
  import opened Wrappers

  /** Java's `Integer.MIN_VALUE` and `Integer.MAX_VALUE`. */
  const IntMin: int := -0x8000_0000
  const IntMax: int := 0x7FFF_FFFF

  predicate IsUpper(c: char) { 'A' <= c <= 'Z' }

  function LowerChar(c: char): (r: char)
    ensures !IsUpper(r)
    ensures !IsUpper(c) ==> r == c
    ensures IsUpper(c) ==> 'a' <= r <= 'z' && r as int - c as int == 32
  {
    if IsUpper(c) then (c as int + 32) as char else c
  }

  /** `String.toLowerCase` on ASCII: every upper-case letter becomes lower case. */
  function Lower(s: string): (r: string)
    ensures |r| == |s|
  {
    seq(|s|, i requires 0 <= i < |s| => LowerChar(s[i]))
  }

  /** Lower case text is left as it is. */
  lemma LowerOfLower(s: string)
    requires forall k :: 0 <= k < |s| ==> !IsUpper(s[k])
    ensures Lower(s) == s
  {
  }

  lemma LowerIdempotent(s: string)
    ensures Lower(Lower(s)) == Lower(s)
  {
  }

  /** `String.equalsIgnoreCase` on ASCII. */
  predicate EqualsIgnoreCase(a: string, b: string) {
    Lower(a) == Lower(b)
  }

  /** `String.trim` removes every leading and trailing character at or below U+0020. */
  predicate IsBlank(c: char) { c <= ' ' }

  /**
   * `String.trim`: while the first character is blank it is dropped, then
   * while the last character is blank it is dropped.
   */
  function Trim(s: string): string {
    if s != [] && IsBlank(s[0]) then Trim(s[1..])
    else if s != [] && IsBlank(s[|s| - 1]) then Trim(s[..|s| - 1])
    else s
  }

  /** A slice of the tail is a slice of the whole, one place further on. */
  lemma TailSlice(s: string, a: nat, b: nat)
    requires s != [] && a <= b <= |s| - 1
    ensures s[1..][a..b] == s[a + 1..b + 1]
  {
    assert forall k :: 0 <= k < b - a ==> s[1..][a..b][k] == s[a + 1 + k];
  }

  /** A slice of a prefix is the same slice of the whole. */
  lemma PrefixSlice(s: string, n: nat, a: nat, b: nat)
    requires a <= b <= n <= |s|
    ensures s[..n][a..b] == s[a..b]
  {
    assert forall k :: 0 <= k < b - a ==> s[..n][a..b][k] == s[a + k];
  }

  /** What `trim` promises: a slice of the input, with no blank at either end, that drops only blanks. */
  lemma TrimSlice(s: string) returns (lo: nat, hi: nat)
    ensures lo <= hi <= |s| && Trim(s) == s[lo..hi]
    ensures forall k :: 0 <= k < lo ==> IsBlank(s[k])
    ensures forall k :: hi <= k < |s| ==> IsBlank(s[k])
    ensures Trim(s) != [] ==> !IsBlank(Trim(s)[0]) && !IsBlank(Trim(s)[|Trim(s)| - 1])
    decreases |s|
  {
    if s != [] && IsBlank(s[0]) {
      var lo', hi' := TrimSlice(s[1..]);
      lo, hi := lo' + 1, hi' + 1;
      TailSlice(s, lo', hi');
      forall k | 0 < k < lo ensures IsBlank(s[k]) {
        assert s[k] == s[1..][k - 1];
      }
      forall k | hi <= k < |s| ensures IsBlank(s[k]) {
        assert s[k] == s[1..][k - 1];
      }
    } else if s != [] && IsBlank(s[|s| - 1]) {
      lo, hi := TrimSlice(s[..|s| - 1]);
      PrefixSlice(s, |s| - 1, lo, hi);
      forall k | hi <= k < |s| - 1 ensures IsBlank(s[k]) {
        assert s[k] == s[..|s| - 1][k];
      }
    } else {
      lo, hi := 0, |s|;
      assert s[0..|s|] == s;
    }
  }

  /** The test `s.trim().length() == 0` holds exactly when every character of `s` is blank. */
  lemma TrimEmptyIffBlank(s: string)
    ensures |Trim(s)| == 0 <==> forall k :: 0 <= k < |s| ==> IsBlank(s[k])
  {
    var lo, hi := TrimSlice(s);
    if |Trim(s)| != 0 {
      assert !IsBlank(s[lo]);
    }
  }

  /** A string whose ends are not blank is its own trim. */
  lemma TrimNoBlankEnds(s: string)
    requires s != [] ==> !IsBlank(s[0]) && !IsBlank(s[|s| - 1])
    ensures Trim(s) == s
  {
    assert s[0..|s|] == s;
  }

  lemma TrimIdempotent(s: string)
    ensures Trim(Trim(s)) == Trim(s)
  {
    var _, _ := TrimSlice(s);
    TrimNoBlankEnds(Trim(s));
  }

  /** `replaceAll("\\{|}", "")`: drop every curly brace, keep the rest in order. */
  function RemoveBraces(s: string): (r: string)
    ensures |r| <= |s|
  {
    if s == [] then []
    else if s[0] == '{' || s[0] == '}' then RemoveBraces(s[1..])
    else [s[0]] + RemoveBraces(s[1..])
  }

  /** No brace is left, and text without braces is left as it is. */
  lemma {:induction false} RemoveBracesNoBraces(s: string)
    ensures forall k :: 0 <= k < |RemoveBraces(s)| ==> RemoveBraces(s)[k] != '{' && RemoveBraces(s)[k] != '}'
    ensures (forall k :: 0 <= k < |s| ==> s[k] != '{' && s[k] != '}') ==> RemoveBraces(s) == s
  {
    if s != [] {
      RemoveBracesNoBraces(s[1..]);
      var rest := RemoveBraces(s[1..]);
      if s[0] != '{' && s[0] != '}' {
        forall k | 0 < k < |RemoveBraces(s)| ensures RemoveBraces(s)[k] == rest[k - 1] { }
      }
      if forall k :: 0 <= k < |s| ==> s[k] != '{' && s[k] != '}' {
        assert forall k :: 0 <= k < |s[1..]| ==> s[1..][k] == s[k + 1];
        assert s == [s[0]] + s[1..];
      }
    }
  }

  /** Braces are removed piece by piece: the kept characters stay in their order. */
  lemma {:induction false} RemoveBracesConcat(a: string, b: string)
    ensures RemoveBraces(a + b) == RemoveBraces(a) + RemoveBraces(b)
    decreases |a|
  {
    if a != [] {
      assert (a + b)[1..] == a[1..] + b;
      RemoveBracesConcat(a[1..], b);
    } else {
      assert a + b == b;
    }
  }

  /** The braces that wrap a line of the data file are dropped and nothing else changes. */
  lemma RemoveBracesWrapped(line: string)
    ensures RemoveBraces("{" + line + "}") == RemoveBraces(line)
  {
    RemoveBracesConcat("{", line + "}");
    RemoveBracesConcat(line, "}");
    assert "{" + line + "}" == "{" + (line + "}");
  }

  /** The braces of `s`, in order. */
  function BracesOf(s: string): string {
    if s == [] then []
    else if s[0] == '{' || s[0] == '}' then [s[0]] + BracesOf(s[1..])
    else BracesOf(s[1..])
  }

  /** Removing the braces loses nothing else: the kept characters and the braces together are the input. */
  lemma {:induction false} RemoveBracesOnlyBraces(s: string)
    ensures multiset(RemoveBraces(s)) + multiset(BracesOf(s)) == multiset(s)
  {
    if s != [] {
      RemoveBracesOnlyBraces(s[1..]);
      assert s == [s[0]] + s[1..];
    }
  }

  /** The first index at or after `from` that holds `sep`, or `|s|` when there is none. */
  function NextSeparator(s: string, sep: char, from: nat): (i: nat)
    requires from <= |s|
    ensures from <= i <= |s|
    ensures i < |s| ==> s[i] == sep
    decreases |s| - from
  {
    if from == |s| || s[from] == sep then from else NextSeparator(s, sep, from + 1)
  }

  /** `NextSeparator` passes no separator on the way. */
  lemma {:induction false} NextSeparatorSkips(s: string, sep: char, from: nat)
    requires from <= |s|
    ensures forall k :: from <= k < NextSeparator(s, sep, from) ==> s[k] != sep
    decreases |s| - from
  {
    if from < |s| && s[from] != sep {
      NextSeparatorSkips(s, sep, from + 1);
    }
  }

  /** The pieces of `s[from..]` between occurrences of `sep`, empty pieces included. */
  function PiecesFrom(s: string, sep: char, from: nat): (r: seq<string>)
    requires from <= |s|
    ensures |r| >= 1
    decreases |s| - from
  {
    var i := NextSeparator(s, sep, from);
    if i == |s| then [s[from..]] else [s[from..i]] + PiecesFrom(s, sep, i + 1)
  }

  /** The pieces of `s` between occurrences of `sep`, empty pieces included. */
  function Pieces(s: string, sep: char): (r: seq<string>)
    ensures |r| >= 1
  {
    PiecesFrom(s, sep, 0)
  }

  /** No piece contains the separator. */
  lemma {:induction false} PiecesFromNoSeparator(s: string, sep: char, from: nat)
    requires from <= |s|
    ensures forall j, k :: 0 <= j < |PiecesFrom(s, sep, from)| && 0 <= k < |PiecesFrom(s, sep, from)[j]| ==>
      PiecesFrom(s, sep, from)[j][k] != sep
    decreases |s| - from
  {
    var i := NextSeparator(s, sep, from);
    NextSeparatorSkips(s, sep, from);
    if i < |s| {
      PiecesFromNoSeparator(s, sep, i + 1);
      var rest := PiecesFrom(s, sep, i + 1);
      forall j, k | 0 <= j < |PiecesFrom(s, sep, from)| && 0 <= k < |PiecesFrom(s, sep, from)[j]|
        ensures PiecesFrom(s, sep, from)[j][k] != sep
      {
        if j == 0 {
          assert PiecesFrom(s, sep, from)[0][k] == s[from + k];
        } else {
          assert PiecesFrom(s, sep, from)[j] == rest[j - 1];
        }
      }
    }
  }

  /** Every piece of `s[from..]` is empty exactly when `s[from..]` consists of separators only. */
  lemma {:induction false} PiecesFromAllEmpty(s: string, sep: char, from: nat)
    requires from <= |s|
    ensures (forall j :: 0 <= j < |PiecesFrom(s, sep, from)| ==> PiecesFrom(s, sep, from)[j] == "") <==>
      (forall k :: from <= k < |s| ==> s[k] == sep)
    decreases |s| - from
  {
    var i := NextSeparator(s, sep, from);
    NextSeparatorSkips(s, sep, from);
    if i == |s| {
      assert PiecesFrom(s, sep, from) == [s[from..]];
      if from < |s| {
        assert s[from..][0] == s[from] != sep;
        assert PiecesFrom(s, sep, from)[0] != "";
      }
    } else {
      var rest := PiecesFrom(s, sep, i + 1);
      assert PiecesFrom(s, sep, from) == [s[from..i]] + rest;
      PiecesFromAllEmpty(s, sep, i + 1);
      if i > from {
        assert s[from..i][0] == s[from] != sep;
        assert PiecesFrom(s, sep, from)[0] != "";
      } else {
        assert s[from..i] == "";
        AllEmptyAfterEmpty(PiecesFrom(s, sep, from), rest);
        AllSeparatorsAfterSeparator(s, sep, from);
      }
    }
  }

  lemma AllEmptyAfterEmpty(pieces: seq<string>, rest: seq<string>)
    requires pieces == [""] + rest
    ensures (forall j :: 0 <= j < |pieces| ==> pieces[j] == "") <==> (forall j :: 0 <= j < |rest| ==> rest[j] == "")
  {
    assert forall j :: 0 <= j < |rest| ==> rest[j] == pieces[j + 1];
  }

  lemma AllSeparatorsAfterSeparator(s: string, sep: char, from: nat)
    requires from < |s| && s[from] == sep
    ensures (forall k :: from <= k < |s| ==> s[k] == sep) <==> (forall k :: from + 1 <= k < |s| ==> s[k] == sep)
  {
  }

  /** The inverse of `Pieces`: glue the pieces back together with the separator. */
  function Join(pieces: seq<string>, sep: char): string
    requires |pieces| >= 1
  {
    if |pieces| == 1 then pieces[0] else pieces[0] + [sep] + Join(pieces[1..], sep)
  }

  /** Joining a first piece onto the rest puts one separator between them. */
  lemma JoinCons(piece: string, rest: seq<string>, sep: char)
    requires |rest| >= 1
    ensures Join([piece] + rest, sep) == piece + [sep] + Join(rest, sep)
  {
    assert ([piece] + rest)[1..] == rest;
  }

  /** The text from `from` on is the part before position `i`, the character at `i`, and the rest. */
  lemma SliceAround(s: string, from: nat, i: nat)
    requires from <= i < |s|
    ensures s[from..] == s[from..i] + [s[i]] + s[i + 1..]
  {
    assert forall k :: 0 <= k < |s| - from ==> s[from..][k] == (s[from..i] + [s[i]] + s[i + 1..])[k];
  }

  lemma {:induction false} JoinPiecesFrom(s: string, sep: char, from: nat)
    requires from <= |s|
    ensures Join(PiecesFrom(s, sep, from), sep) == s[from..]
    decreases |s| - from
  {
    var i := NextSeparator(s, sep, from);
    if i < |s| {
      var rest := PiecesFrom(s, sep, i + 1);
      assert PiecesFrom(s, sep, from) == [s[from..i]] + rest;
      JoinPiecesFrom(s, sep, i + 1);
      JoinCons(s[from..i], rest, sep);
      SliceAround(s, from, i);
    } else {
      assert PiecesFrom(s, sep, from) == [s[from..]];
    }
  }

  /** Joining the pieces of a string with the separator gives the string back. */
  lemma JoinPieces(s: string, sep: char)
    ensures Join(Pieces(s, sep), sep) == s
  {
    JoinPiecesFrom(s, sep, 0);
    assert s[0..] == s;
  }

  function DropTrailingEmpty(pieces: seq<string>): (r: seq<string>)
    ensures |r| <= |pieces| && r == pieces[..|r|]
    ensures r != [] ==> r[|r| - 1] != ""
  {
    if pieces != [] && pieces[|pieces| - 1] == "" then DropTrailingEmpty(pieces[..|pieces| - 1]) else pieces
  }

  /** Only empty pieces are dropped. */
  lemma {:induction false} DropTrailingEmptyOnlyEmpty(pieces: seq<string>)
    ensures forall k :: |DropTrailingEmpty(pieces)| <= k < |pieces| ==> pieces[k] == ""
  {
    if pieces != [] && pieces[|pieces| - 1] == "" {
      DropTrailingEmptyOnlyEmpty(pieces[..|pieces| - 1]);
    }
  }

  /**
   * `String.split` with a one-character separator and no limit: the input
   * itself when the separator does not occur, otherwise the pieces with
   * trailing empty strings removed.
   */
  function Split(s: string, sep: char): (r: seq<string>)
    ensures sep !in s ==> r == [s]
  {
    if sep !in s then [s] else DropTrailingEmpty(Pieces(s, sep))
  }

  /** With the separator present, `split` returns a prefix of the pieces that does not end in an empty piece. */
  lemma SplitPrefix(s: string, sep: char)
    requires sep in s
    ensures |Split(s, sep)| <= |Pieces(s, sep)| && Split(s, sep) == Pieces(s, sep)[..|Split(s, sep)|]
    ensures Split(s, sep) != [] ==> Split(s, sep)[|Split(s, sep)| - 1] != ""
  {
  }

  /** The first piece runs up to the next separator. */
  lemma PiecesFromFirst(s: string, sep: char, from: nat)
    requires from <= |s|
    ensures PiecesFrom(s, sep, from)[0] == s[from..NextSeparator(s, sep, from)]
  {
    if NextSeparator(s, sep, from) == |s| {
      assert s[from..] == s[from..|s|];
    }
  }

  /** After a separator, the second piece is the first piece of the rest. */
  lemma PiecesFromSecond(s: string, sep: char, from: nat)
    requires from <= |s| && NextSeparator(s, sep, from) < |s|
    ensures |PiecesFrom(s, sep, from)| >= 2
    ensures PiecesFrom(s, sep, from)[1] == PiecesFrom(s, sep, NextSeparator(s, sep, from) + 1)[0]
  {
  }

  /** `NextSeparator` finds a separator whenever there is one at or after `from`. */
  lemma NextSeparatorFinds(s: string, sep: char, from: nat, k: nat)
    requires from <= k < |s| && s[k] == sep
    ensures NextSeparator(s, sep, from) <= k
  {
    NextSeparatorSkips(s, sep, from);
  }

  /** Two pieces or more come from a string with the separator, and they are its first two pieces. */
  lemma SplitFirstPieces(s: string, sep: char)
    requires |Split(s, sep)| >= 2
    ensures NextSeparator(s, sep, 0) < |s|
    ensures |Pieces(s, sep)| >= 2 && Split(s, sep)[0] == Pieces(s, sep)[0] && Split(s, sep)[1] == Pieces(s, sep)[1]
  {
    SplitPrefix(s, sep);
    var k :| 0 <= k < |s| && s[k] == sep;
    NextSeparatorFinds(s, sep, 0, k);
  }

  /** When `split` gives two pieces or more, they are the text before the first separator and the text up to the next. */
  lemma SplitFirstTwo(s: string, sep: char)
    requires |Split(s, sep)| >= 2
    ensures var i := NextSeparator(s, sep, 0);
      && i < |s|
      && Split(s, sep)[0] == s[..i]
      && Split(s, sep)[1] == s[i + 1..NextSeparator(s, sep, i + 1)]
  {
    SplitFirstPieces(s, sep);
    var i := NextSeparator(s, sep, 0);
    var pieces := PiecesFrom(s, sep, 0);
    assert Pieces(s, sep) == pieces;
    PiecesFromFirst(s, sep, 0);
    assert pieces[0] == s[..i];
    PiecesFromSecond(s, sep, 0);
    PiecesFromFirst(s, sep, i + 1);
    assert pieces[1] == s[i + 1..NextSeparator(s, sep, i + 1)];
  }

  /** The pieces that `split` leaves out are all empty. */
  lemma SplitDropsOnlyEmpty(s: string, sep: char)
    requires sep in s
    ensures forall k :: |Split(s, sep)| <= k < |Pieces(s, sep)| ==> Pieces(s, sep)[k] == ""
  {
    DropTrailingEmptyOnlyEmpty(Pieces(s, sep));
  }

  /** Dropping trailing empty pieces leaves at most one exactly when every piece after the first is empty. */
  lemma DropTrailingEmptyAtMostOne(pieces: seq<string>)
    ensures |DropTrailingEmpty(pieces)| <= 1 <==> forall j :: 1 <= j < |pieces| ==> pieces[j] == ""
  {
    var r := DropTrailingEmpty(pieces);
    DropTrailingEmptyOnlyEmpty(pieces);
    if |r| > 1 {
      assert pieces[|r| - 1] == r[|r| - 1];
    }
  }

  /**
   * `split` returns fewer than two pieces exactly when nothing but separators
   * follows the first separator (or there is none).
   */
  lemma SplitFewerThanTwo(s: string, sep: char)
    ensures |Split(s, sep)| < 2 <==> sep !in s || forall k :: NextSeparator(s, sep, 0) < k < |s| ==> s[k] == sep
  {
    if sep in s {
      var i := NextSeparator(s, sep, 0);
      NextSeparatorSkips(s, sep, 0);
      assert i < |s|;
      var pieces := Pieces(s, sep);
      var rest := PiecesFrom(s, sep, i + 1);
      assert pieces == [s[0..i]] + rest;
      PiecesFromAllEmpty(s, sep, i + 1);
      DropTrailingEmptyAtMostOne(pieces);
      assert (forall j :: 1 <= j < |pieces| ==> pieces[j] == "") <==> (forall j :: 0 <= j < |rest| ==> rest[j] == "") by {
        assert forall j :: 1 <= j < |pieces| ==> pieces[j] == rest[j - 1];
        assert forall j :: 0 <= j < |rest| ==> rest[j] == pieces[j + 1];
      }
    }
  }

  /** No piece that `split` returns contains the separator. */
  lemma SplitNoSeparator(s: string, sep: char)
    ensures forall j, k :: 0 <= j < |Split(s, sep)| && 0 <= k < |Split(s, sep)[j]| ==> Split(s, sep)[j][k] != sep
  {
    if sep in s {
      SplitPrefix(s, sep);
      PiecesFromNoSeparator(s, sep, 0);
    }
  }

  predicate IsDigit(c: char) { '0' <= c <= '9' }

  predicate AllDigits(s: string) {
    forall k :: 0 <= k < |s| ==> IsDigit(s[k])
  }

  /** The value of a string of decimal digits, most significant first. */
  function DigitsValue(s: string): (n: nat)
    requires AllDigits(s)
  {
    if s == [] then 0 else 10 * DigitsValue(s[..|s| - 1]) + (s[|s| - 1] as int - '0' as int)
  }

  function InIntRange(n: int): Option<int> {
    if IntMin <= n <= IntMax then Some(n) else None
  }

  /**
   * `Integer.parseInt`: an optional `+` or `-`, then one or more decimal
   * digits, whose value fits in 32 bits; anything else is `None`
   * (a `NumberFormatException`).
   */
  function ParseInt(s: string): (r: Option<int>)
    ensures r.Some? ==> IntMin <= r.value <= IntMax
    ensures s == [] ==> r.None?
  {
    if s == [] then None
    else if s[0] == '-' || s[0] == '+' then
      if |s| == 1 || !AllDigits(s[1..]) then None
      else if s[0] == '-' then InIntRange(-(DigitsValue(s[1..]) as int))
      else InIntRange(DigitsValue(s[1..]))
    else if AllDigits(s) then InIntRange(DigitsValue(s))
    else None
  }

  /** Only an optional leading sign and decimal digits parse. */
  lemma ParseIntDigits(s: string)
    requires ParseInt(s).Some?
    ensures forall k :: 0 <= k < |s| ==> IsDigit(s[k]) || (k == 0 && (s[0] == '-' || s[0] == '+'))
    ensures IsDigit(s[|s| - 1])
  {
    if s[0] == '-' || s[0] == '+' {
      assert forall k :: 1 <= k < |s| ==> s[k] == s[1..][k - 1];
    }
  }

  /**
   * Every nonempty run of decimal digits parses, leading zeros included, with
   * or without a leading `+`, and with a leading `-` to its negation, as long
   * as the value fits in 32 bits.
   */
  lemma ParseIntSignedDigits(d: string)
    requires d != [] && AllDigits(d)
    ensures ParseInt(d) == InIntRange(DigitsValue(d))
    ensures ParseInt("+" + d) == InIntRange(DigitsValue(d))
    ensures ParseInt("-" + d) == InIntRange(-(DigitsValue(d) as int))
  {
    assert ("+" + d)[1..] == d;
    assert ("-" + d)[1..] == d;
  }

  /** `NextSeparator` stops at the first separator, or at the end when there is none after `from`. */
  lemma {:induction false} NextSeparatorAt(s: string, sep: char, from: nat, i: nat)
    requires from <= i <= |s| && (i < |s| ==> s[i] == sep)
    requires forall k :: from <= k < i ==> s[k] != sep
    ensures NextSeparator(s, sep, from) == i
    decreases i - from
  {
    if from < i {
      NextSeparatorAt(s, sep, from + 1, i);
    }
  }

  /** Decimal digits of a natural number, without leading zeros. */
  function Digits(n: nat): (s: string)
    ensures s != [] && AllDigits(s)
  {
    if n < 10 then ['0' + n as char] else Digits(n / 10) + ['0' + (n % 10) as char]
  }

  /** `Integer.toString`: the text a user types for a number. */
  function DecimalString(n: int): (s: string)
  {
    if n < 0 then "-" + Digits(-n) else Digits(n)
  }

  lemma {:induction false} DigitsRoundTrip(n: nat)
    ensures DigitsValue(Digits(n)) == n
  {
    if n >= 10 {
      DigitsRoundTrip(n / 10);
      var s := Digits(n);
      assert s[..|s| - 1] == Digits(n / 10);
    }
  }

  /** Parsing the decimal text of any 32-bit integer gives the integer back. */
  lemma ParseDecimalString(n: int)
    requires IntMin <= n <= IntMax
    ensures ParseInt(DecimalString(n)) == Some(n)
    ensures Trim(DecimalString(n)) == DecimalString(n)
  {
    var s := DecimalString(n);
    if n < 0 {
      DigitsRoundTrip(-n);
      assert s[1..] == Digits(-n);
    } else {
      DigitsRoundTrip(n);
    }
    TrimNoBlankEnds(s);
  }
}

=== FILE: wrappers.dfy ===
/** Option and Result, used for Java's null and for the exceptions that abort a load. */
module Wrappers {

  /** `None` stands for a Java `null` reference. */
  datatype Option<+T> = None | Some(value: T)

  /** `Err` stands for an exception thrown by the modelled code. */
  datatype Result<+T, +E> = Ok(value: T) | Err(error: E)
}
